=== FILE: README.md ===
# tcp-crypto delivery engine, in Dafny

`tcp-crypto.js` connects one client and one server over TCP. The messages are
`{id, event, data}` objects, serialised as JSON and, optionally, encrypted to
base64. Each message travels as one frame: its text followed by `|`.

Each peer has the same delivery engine. A FIFO queue is drained one write at a
time behind an `isBusy` flag. A receive buffer turns arbitrary data chunks into
packets by splitting on `|`. Each packet is decoded and dispatched.

- **Client.**
  - Each write gets a fresh id.
  - After a successful write, the reply callback supplied with `send` is
    registered under that id. A later message with that id resolves the callback.
  - Any other message is emitted as an application event and answered with an
    `ACK {id, event}`.
  - The client reconnects on a timer after every close. Each new connection
    drops the old queue and the pending callbacks.
- **Server.**
  - An id is drawn when a message is enqueued, unless the caller gives one.
  - Every received message is emitted.
  - In durable mode (`opts.dir`), every queued message is mirrored in the
    outbox directory as a file `<id>.<event>`.
  - An incoming ACK unlinks the file it names.
  - When a server starts, whatever is left in the directory is read back into
    the queue.

The model has these parts:

- `framing.dfy` (module `Framing`): the frame and the split-and-keep-last-piece
  reassembly step, as pure functions.
- `protocol.dfy` (module `Protocol`): messages, the observations a peer emits,
  and the codec.
  - JSON and the cipher are function-valued parameters.
  - Their round-trip and base64 guarantees are predicates, required only by
    the lemmas that need them.
- `outbox.dfy` (module `Outbox`): file names, the ACK target, and start-up
  recovery over a directory given as a listing plus a map from file name to
  contents.
- `dispatch.dfy` (module `Dispatch`): what each peer does with the packets of
  one chunk, as pure folds. The lemmas state what these folds emit, answer,
  resolve and unlink.
- `client.dfy` (module `ClientEngine`): the client as a class.
  - The socket events (connect, data, write completion, close) and the reconnect
    timer are explicit method calls.
  - The receive methods (`Handle`, `HandleAll`, `OnData`) are proved against
    the pure folds of `Dispatch`; the other methods state their new state directly.
- `server.dfy` (module `ServerEngine`): the server as a class, in the same style;
  its receive methods are proved against the server folds of `Dispatch`.
- `collections.dfy` (module `Collections`) and `wrappers.dfy` (module
  `Wrappers`): small shared helpers (associativity, map removal, `Option`).

Emitted events are not delivered to listeners. They are appended to a `log` of
observations. The id generator becomes a `freshId` parameter of each method
that can start a write or enqueue a message. Every message handed to a socket
is recorded in `written`. The class invariants and the `WritesFollowQueue`
lemmas tie `written` to the queue's history.

## Model

| member | source | states |
|---|---|---|
| `Framing.Frame` | tcp-crypto.js:61 | a frame is the text followed by one delimiter; a delimiter-free text's frame splits into the text and an empty last piece |
| `Framing.Split` | tcp-crypto.js:91 | splitting on the delimiter yields one more piece than there are delimiters |
| `Framing.SplitPiecesFree` | tcp-crypto.js:91 | no piece of a split contains the separator |
| `Framing.SplitRejoins` | tcp-crypto.js:91 | joining the pieces with the separator gives back the text |
| `Framing.Reassemble` | tcp-crypto.js:88-92 | old buffer ++ chunk equals the packets, each followed by the delimiter, then the new buffer; neither the new buffer nor any packet contains the delimiter; there are as many packets as delimiters |
| `Framing.ReassemblyUnique` | tcp-crypto.js:88-92 | any decomposition into delimiter-free terminated packets and a delimiter-free rest is the one reassembly returns |
| `Framing.ReassembleEarly` | tcp-crypto.js:207-214 | the server's receive step keeps the reassembly invariant: old buffer ++ chunk is the packets, each terminated, then the new buffer, with no delimiter in the buffer or any packet, and as many packets as delimiters |
| `Framing.EarlyReturnEquivalent` | tcp-crypto.js:207-214 | the server's early return when no delimiter is buffered yields the same packets and buffer as the plain split |
| `Framing.FrameRoundTrip` | tcp-crypto.js:61 | a delimiter-free text, framed and fed to an empty buffer, comes back as the only packet and leaves the buffer empty |
| `Framing.StreamRoundTrip` | tcp-crypto.js:198-199 | consecutive frames received in one chunk give back every text, in order, and an empty buffer |
| `Framing.ChunkingIndependent` | tcp-crypto.js:88-92 | two chunks received one after the other yield the packets and buffer of their concatenation |
| `Framing.DelimiterCollision` | tcp-crypto.js:61 | there is no escaping: any text, framed and fed to an empty buffer, arrives cut at every delimiter it holds, as one more packet than it has delimiters, with an empty buffer |
| `Protocol.Truthy` | tcp-crypto.js:165 | `!!data`: an `{id, event}` object is always truthy; any other value is as JavaScript coerces it |
| `Protocol.Encode` | tcp-crypto.js:61 | with a JSON and cipher that round-trip, the packet written for a message decodes back to that message |
| `Protocol.Decode` | tcp-crypto.js:98 | a packet the cipher cannot decrypt decodes to nothing; a packet that decodes yields what JSON parsing gives for some text |
| `Protocol.CipherAvoidsCollision` | tcp-crypto.js:8-11 | when every character the cipher outputs is a base64 character (letters, digits, `+`, `/`, `=`), no encoded message contains the delimiter |
| `Protocol.WireRoundTrip` | tcp-crypto.js:61 | what a peer writes for a list of messages decodes at the other peer to exactly those messages, given a JSON and cipher that round-trip |
| `Outbox.FileName` | tcp-crypto.js:168 | the file `<id>.<event>`; when neither holds `.`, it splits on `.` into exactly id and event |
| `Outbox.NameParts` | tcp-crypto.js:150-152 | id and event hold no `.`; a name without `.` gives the whole name and `undefined`; otherwise id `.` event is a prefix of the name that ends at its second `.` or at its end |
| `Outbox.AckTarget` | tcp-crypto.js:227 | the file an ACK of `{id, event}` names splits back into that id and event when neither holds `.`; any other data names exactly `undefined.undefined`, which splits into `undefined` twice |
| `Outbox.NameRoundTrip` | tcp-crypto.js:150-152 | a file named `<id>.<event>` splits back into that id and event when neither contains `.` |
| `Outbox.DottedEventTruncated` | tcp-crypto.js:150-152 | an event containing `.` comes back cut at its first `.` |
| `Outbox.Restore` | tcp-crypto.js:149-165 | a file restores to a message exactly when its contents parse to truthy data; the message carries that data and the id and event its name splits into |
| `Outbox.Recover` | tcp-crypto.js:148-165 | recovery yields at most one message per listed file, and every restored message has truthy data |
| `Outbox.RecoverSound` | tcp-crypto.js:148-165 | every restored message is what some listed file parses to, with truthy data |
| `Outbox.RecoverComplete` | tcp-crypto.js:148-165 | every listed file whose data parses and is truthy is restored; only unparsable or falsy ones are left out |
| `Outbox.RecoverFaults` | tcp-crypto.js:156-162 | recovery reports one fault for every listed file whose contents do not parse, and no other |
| `Outbox.RecoverAsWritten` | tcp-crypto.js:156-162 | as written, start-up completes exactly when every listed file parses, with at most one message per file |
| `Outbox.CorruptFileAbortsStartup` | tcp-crypto.js:156-162 | as written, one unparsable file makes start-up throw |
| `Outbox.CleanStartupAgrees` | tcp-crypto.js:148-165 | when every file parses, start-up as written and the recovery that drops bad files agree, with no fault |
| `Outbox.RestoresWrittenFile` | tcp-crypto.js:166-169 | a file written for `(id, event, data)` with truthy data is restored to exactly that message |
| `Dispatch.ClientDispatch` | tcp-crypto.js:103-115 | one packet is first emitted as 'receive' when it decodes, as 'error' otherwise; an ACK is enqueued exactly for a decoded non-ACK whose id is not pending |
| `Dispatch.AckFor` | tcp-crypto.js:113 | the auto-ACK is an `ACK` entry with no callback whose data is the `{id, event}` of the message it acknowledges (the file it names is `Dispatch.AckClearsOutboxEntry`) |
| `Dispatch.ClientReceive` | tcp-crypto.js:94-116 | a chunk never adds pending callbacks and enqueues at most one ACK per packet |
| `Dispatch.ClientReceiveAppend` | tcp-crypto.js:93-116 | handling a chunk's packets is handling its two halves one after the other |
| `Dispatch.DecodeFailureIsolatedAtClient` | tcp-crypto.js:94-101 | a packet that fails to decode adds one 'error' and nothing else; the packets around it are handled as if it were absent |
| `Dispatch.ClientDispatchFilters` | tcp-crypto.js:103-115 | one packet gives one 'receive' if it decodes and one 'error' otherwise; the pending callback called with its data when its id is pending; an application event with its event and data when it is an unmatched non-ACK |
| `Dispatch.ClientReceipts` | tcp-crypto.js:93-103 | every decoded packet of a chunk is emitted as 'receive', in order, and every other one as one 'error' |
| `Dispatch.ClientCallbacksLeft` | tcp-crypto.js:105-109 | the pending callbacks after a chunk are exactly those whose id did not arrive |
| `Dispatch.ClientRepliesOnce` | tcp-crypto.js:105-109 | as many callbacks are invoked as there are pending ids that arrive in the chunk |
| `Dispatch.ClientRepliesExactly` | tcp-crypto.js:105-109 | the callbacks invoked are, in order, the pending callback of each decoded message whose id was pending and not already answered earlier in the chunk, called with its data |
| `Dispatch.ClientEmitsUnexpected` | tcp-crypto.js:111-115 | the application events are, in order, one `(event, data)` per decoded non-ACK whose id was not pending |
| `Dispatch.ClientAcksUnexpected` | tcp-crypto.js:111-115 | an ACK is enqueued for exactly the non-ACK messages whose id was not pending, in order |
| `Dispatch.ClientAnswersUnexpected` | tcp-crypto.js:105-115 | a reply to a pending id is never acknowledged and consumes its entry; an unmatched non-ACK is acknowledged; an unmatched ACK is not |
| `Dispatch.ClientDispatchAsWritten` | tcp-crypto.js:105-109 | as written, a packet agrees with the own-key dispatch except for an unmatched id naming an inherited member, which only gives 'receive' |
| `Dispatch.InheritedIdSwallowed` | tcp-crypto.js:105-109 | as written, a message with id `toString` and nothing pending is neither emitted nor acknowledged |
| `Dispatch.ServerDispatch` | tcp-crypto.js:224-231 | one packet is first emitted as 'receive' when it decodes, as 'error' otherwise; it unlinks a file exactly when it is an ACK at a durable server |
| `Dispatch.ServerReceive` | tcp-crypto.js:216-232 | a chunk unlinks at most one file per packet, and none without a directory |
| `Dispatch.ServerDispatchFilters` | tcp-crypto.js:224-231 | one packet gives one 'receive' if it decodes and one 'error' otherwise, and an application event unless it is an ACK in durable mode |
| `Dispatch.ServerReceiveSpec` | tcp-crypto.js:216-232 | 'receive' for every decoded packet in order; one 'error' per failure; in durable mode the ACK targets are unlinked, otherwise nothing is; every decoded message is either emitted or unlinks a file |
| `Dispatch.ServerEmitsAllWithoutDir` | tcp-crypto.js:226-231 | without a directory every decoded message, ACKs included, is emitted as `(event, data, id)` in order |
| `Dispatch.ServerEmitsUnlessUnlinked` | tcp-crypto.js:224-231 | in either mode the application events are, in order, `(event, data, id)` for every decoded message except the ACKs a durable server turns into unlinks |
| `Dispatch.ServerReceiveAppend` | tcp-crypto.js:216-232 | handling a chunk's packets is handling its two halves one after the other |
| `Dispatch.DecodeFailureIsolatedAtServer` | tcp-crypto.js:218-223 | a packet that fails to decode adds one 'error' and changes nothing else |
| `Dispatch.AckClearsOutboxEntry` | tcp-crypto.js:226-227 | the ACK the client sends for a message, once it reaches a durable server under any id, unlinks exactly that message's file |
| `ClientEngine.ReconnectDelay` | tcp-crypto.js:120 | the delay is seconds × 1000 when that is non-zero, and 30000 ms when it is zero or the option is missing; never zero |
| `ClientEngine.Client.WritesFollowQueue` | tcp-crypto.js:45-74 | the messages handed to sockets carry the enqueue order's entries, and at most the head is written and not yet shifted |
| `ClientEngine.Client.constructor` | tcp-crypto.js:23-35 | a new client is not connected, busy, connecting, with an empty queue and no callbacks |
| `ClientEngine.Client.Connect` | tcp-crypto.js:76-80 | a new connection attempt empties the queue, the callbacks and the buffer, and sets busy |
| `ClientEngine.Client.OnConnect` | tcp-crypto.js:82-86 | the connect event clears busy, sets connected, emits 'connect' and writes nothing |
| `ClientEngine.Client.Next` | tcp-crypto.js:45-74 | a no-op while busy; with an empty queue it clears busy; otherwise it writes only the head under a fresh id |
| `ClientEngine.Client.Send` | tcp-crypto.js:37-43 | not connected with a callback: the callback gets the CONNECTION error and the queue is unchanged; otherwise the entry is appended at the tail and the queue drained |
| `ClientEngine.Client.WriteComplete` | tcp-crypto.js:61-72 | on error: 'error', head kept, still busy, queue stalled; on success: callback registered under the sent id if one was given, 'send', head shifted, queue drained |
| `ClientEngine.Client.ShiftHead` | tcp-crypto.js:65-70 | the callback is registered under the sent id only if supplied, 'send' carries the head, the head is shifted off, busy is cleared |
| `ClientEngine.Client.Handle` | tcp-crypto.js:94-115 | one packet changes the callbacks, log and queue exactly as the client dispatch with the own-key callback lookup says, and an enqueued ACK starts a write only on an idle queue |
| `ClientEngine.Client.HandleAll` | tcp-crypto.js:93-116 | a chunk's packets change the state exactly as the client fold over them says |
| `ClientEngine.Client.OnData` | tcp-crypto.js:88-117 | the buffer becomes the reassembly's rest and its packets are handled in order |
| `ClientEngine.Client.OnClose` | tcp-crypto.js:119-126 | a reconnect is scheduled after the computed delay, 'disconnect' is emitted only if connected, and the client ends not connected |
| `ServerEngine.IdOrFresh` | tcp-crypto.js:178 | a given non-empty id is kept; otherwise a fresh id is drawn |
| `ServerEngine.Server.WritesFollowQueue` | tcp-crypto.js:189-205 | the messages handed to sockets are a prefix of the enqueue order, and at most one is written and not yet shifted |
| `ServerEngine.Server.constructor` | tcp-crypto.js:137-175 | for a listing that names each file of the directory once, with the corrected recovery of the second Findings row: in durable mode the queue is what recovery restores and each file that does not parse is reported as one 'error' and dropped; otherwise empty; busy until the first connection |
| `ServerEngine.Server.Next` | tcp-crypto.js:189-205 | a no-op while busy; with an empty queue it clears busy; with a socket it writes only the head; without one it stays busy and writes nothing |
| `ServerEngine.Server.Send` | tcp-crypto.js:177-181 | the message with the given or a fresh id joins the tail; in durable mode its file `<id>.<event>` holds its data; the queue is drained once a connection was accepted |
| `ServerEngine.Server.WriteComplete` | tcp-crypto.js:199-204 | 'send' is emitted for the head, the head is shifted off, and the queue is drained again |
| `ServerEngine.Server.Accept` | tcp-crypto.js:183-187 | a connection clears busy, emits 'connection' and drains the queue into the new socket |
| `ServerEngine.Server.OnClose` | tcp-crypto.js:235-238 | 'disconnection' is emitted, the socket is forgotten, and busy is left as it was |
| `ServerEngine.Server.Handle` | tcp-crypto.js:218-231 | one packet changes the log and the outbox exactly as the server dispatch says; nothing is enqueued in reply |
| `ServerEngine.Server.HandleAll` | tcp-crypto.js:216-232 | a chunk's packets change the log and the outbox exactly as the server fold over them says |
| `ServerEngine.Server.OnData` | tcp-crypto.js:207-233 | the buffer becomes the rest of the early-returning reassembly and its packets are handled in order |

## Left out

- The cipher (`crypto.createCipher`/`createDecipher`) and JSON are foreign code. They are function-valued parameters, and what they are assumed to guarantee is stated as predicates that lemmas require.
- `genId` reads the clock and a random number. It is a `freshId` parameter.
- Sockets, `listen`, `maxConnections` and `process.exit` on listener close are not modelled. The socket events that matter are explicit method calls. `Server.Accept` requires no current connection, standing in for `maxConnections = 1`.
- `setTimeout` scheduling is not modelled. `Client.OnClose` records the delay in `reconnectIn`, and `Client.Connect` stands for the timer firing.
- The EventEmitter is not modelled: emissions are appended to `log`.
  - The client's 'error' re-emission throws when nobody listens. This is not modelled.
  - The server forwards a socket 'error' as its own 'error' (line 240); with no listener that emit throws. A packet that fails to decode at the server (line 222) therefore throws there unless the application listens. The model only records the 'error'.
  - Application events whose name collides with 'connect', 'send' or 'error' are not modelled.
- File-system I/O is not modelled. The directory is a map, and its listing order is a parameter.
  - `mkdirSync` and its EEXIST case are left out.
  - `unlink` is asynchronous and its errors are only printed; the model removes the file at once.
  - The `{'flags': 'a'}` option of `writeFileSync` is not an option Node reads, so a rewrite replaces the file, as the map update does.
  - The 'error' text with an uninterpolated `${msg.id}` is not modelled.
- ClientEngine.ReconnectDelay: takes whole seconds only. Fractional or string-valued `reconnect-delay` options and JavaScript number coercion are not modelled.
- ClientEngine.Client.Connect: requires that no write is in flight on the old socket.
  - A write callback of the old socket that runs after reconnecting would act on the new queue. This is not modelled.
- ServerEngine.Server.constructor: follows the corrected recovery of the second Findings row (`Outbox.Recover`). As written, the 'error' emitted inside the constructor (line 160) has no listener, so start-up throws at the first file that does not parse; `Outbox.RecoverAsWritten` and `Outbox.CorruptFileAbortsStartup` model that behaviour.
- ClientEngine.Client.Handle: follows the own-key callback lookup of the first Findings row (`Dispatch.ClientDispatch`). As written, an unmatched id that names an inherited object member is swallowed; `Dispatch.ClientDispatchAsWritten` models that behaviour.
- ServerEngine.Server.Accept: requires that no write is in flight on the previous socket.
  - That socket's callback would otherwise shift the head while the new connection also writes it. This is not modelled.
- Dispatch.ClientDispatchAsWritten: ids that make the callback call throw are not modelled. `__proto__`, `__defineGetter__` and `__defineSetter__` are such ids; any of them in `msg.id` makes the data handler throw.
- Data values are either `{id, event}` objects with string fields or opaque values known by truthiness. An object with only one of `id` and `event`, or with non-string values for them, cannot be expressed.
- Outbox.AckTarget: names `undefined.undefined` for every data that is not an `{id, event}` object. In the source only data that has neither an `id` nor an `event` property names `undefined.undefined`. An object with only one of them names `<id>.undefined` or `undefined.<event>`, and non-string values name the file after their string forms (data `{"id":7,"event":"x"}` names `7.x`); such data is not expressible here. An ACK whose data is `null` or missing makes `msg.data.id` throw at line 227, which is not modelled either.
- A packet is modelled as parsing to a message object or failing. A packet that parses to `null` makes `msg.id` (line 105) or `msg.event` (line 226) throw; one that parses to another non-object value has undefined id and event. Neither is modelled.
- Framing.ChunkingIndependent: chunks are modelled as text. The source receives `Buffer` chunks and `buffer += chunk` decodes each one as UTF-8 on its own (lines 90 and 209), so a multi-byte character cut between two chunks becomes U+FFFD characters in plaintext mode. The lemma holds for chunks cut at character boundaries; with a cipher the wire carries base64, which is ASCII and unaffected.

## Findings

| source | as written | input that shows it | evidently intended | confidence | as-written member | corrected member |
|---|---|---|---|---|---|---|
| tcp-crypto.js:105-109 | `msg.id in callbacks` on a plain object also finds the names every object inherits, and calls the inherited method as a reply callback | a message with id `toString` and no pending request: it is swallowed, neither emitted nor acknowledged | only the client's own pending ids count, so the message is emitted and acknowledged | not executed | `Dispatch.InheritedIdSwallowed` | `Dispatch.ClientAcksUnexpected` |
| tcp-crypto.js:156-162 | a file that does not parse is reported with `server.emit('error', …)` inside the constructor, where no listener can exist yet, so the emit throws | an outbox directory holding one file whose contents are not JSON | report the file and drop it: the empty-data assignment and falsy filter that follow are written for exactly that | not executed | `Outbox.CorruptFileAbortsStartup` | `Outbox.RecoverComplete` |

=== FILE: client.dfy ===
/** The client's delivery engine: one socket per connection attempt, a FIFO
    queue drained one write at a time, a map of pending reply callbacks, and the
    receive buffer. Every socket event (connect, data, write completion, close)
    and the reconnect timer are explicit method calls; the message id the
    source draws from the clock and a random number at write time is the
    `freshId` parameter of the methods that may start a write. */
module ClientEngine {
  import opened Wrappers
  import opened Protocol
  import Framing
  import Dispatch
  import Collections

  /** The state of the current socket. */
  datatype Phase = Connecting | Open | Closed

  /** The delay before reconnecting, in milliseconds:
      `opts['reconnect-delay'] * 1000 || 30000`, where a missing option is NaN
      and so, like zero, falls back to 30 seconds. */
  function ReconnectDelay(seconds: Option<int>): (ms: int)
    ensures ms != 0
    ensures seconds.Some? && seconds.value != 0 ==> ms == 1000 * seconds.value
    ensures seconds.None? || seconds.value == 0 ==> ms == 30000
  {
    match seconds
    case None => 30000
    case Some(s) => if s * 1000 != 0 then s * 1000 else 30000
  }

  /** The message written for a queue entry carries that entry's event and data. */
  predicate Carries(m: Message, item: Outgoing)
  {
    m.event == item.event && m.data == item.data
  }

  /** The drain state (busy flag, messages handed to the socket, write in
      flight) of a queue after entries were appended to it: an idle queue that
      grew starts writing its head under `freshId`; otherwise nothing changes. */
  function Drained(queue: seq<Outgoing>, busy: bool, written: seq<Message>, writing: Option<Message>,
                   grew: bool, freshId: string): (bool, seq<Message>, Option<Message>)
  {
    if busy || !grew || queue == [] then (busy, written, writing)
    else
      var m := Message(freshId, queue[0].event, queue[0].data);
      (true, written + [m], Some(m))
  }

  /** Appending in two steps drains like appending everything at once. */
  lemma DrainedTwice(queue: seq<Outgoing>, a: seq<Outgoing>, b: seq<Outgoing>, busy: bool,
                     written: seq<Message>, writing: Option<Message>, freshId: string)
    ensures var d := Drained(queue + a, busy, written, writing, a != [], freshId);
            Drained(queue + a + b, d.0, d.1, d.2, b != [], freshId)
              == Drained(queue + (a + b), busy, written, writing, a + b != [], freshId)
  {
    assert queue + a + b == queue + (a + b);
    if queue + a != [] {
      assert (queue + a + b)[0] == (queue + a)[0];
    }
  }

  class Client {
    const codec: Codec
    /** `opts.id`, echoed in the connect and disconnect observations. */
    const peer: string
    /** `opts['reconnect-delay']`, in seconds. */
    const reconnectSeconds: Option<int>

    var isConnected: bool
    var queue: seq<Outgoing>
    var callbacks: map<string, Handler>
    var isBusy: bool
    var phase: Phase
    var buffer: string
    /** The write handed to the socket whose completion callback has not run. */
    var writing: Option<Message>
    /** Every message handed to the current socket, in order. */
    var written: seq<Message>
    /** Everything emitted, in order. */
    var log: seq<Observation>
    /** The delay of the reconnect timer the last close scheduled, until it fires. */
    var reconnectIn: Option<int>

    /** The entries shifted off the queue after their write completed, on the current socket. */
    ghost var shifted: seq<Outgoing>
    /** A write failed: its entry stays at the head and the queue stays busy for good on this socket. */
    ghost var stalled: bool

    ghost predicate Valid()
      reads this
    {
      && Framing.Delim !in buffer
      && isConnected == (phase == Open)
      && (phase == Connecting ==> isBusy && writing.None? && !stalled)
      && (writing.Some? ==> isBusy && !stalled && |queue| > 0 && Carries(writing.value, queue[0]))
      && (stalled ==> isBusy && writing.None? && |queue| > 0)
      && |written| == |shifted| + (if writing.Some? || stalled then 1 else 0)
      && (forall i :: 0 <= i < |shifted| ==> Carries(written[i], shifted[i]))
      && (writing.Some? ==> written[|shifted|] == writing.value)
      && (stalled ==> Carries(written[|shifted|], queue[0]))
    }

    /** Drain discipline: what the socket has been handed is a prefix of the
        enqueue order (the shifted entries, then the queue), and only the head
        can be written and not yet shifted. */
    lemma WritesFollowQueue()
      requires Valid()
      ensures |written| <= |shifted| + |queue|
      ensures forall i :: 0 <= i < |written| ==> Carries(written[i], (shifted + queue)[i])
      ensures |written| > |shifted| ==> |written| == |shifted| + 1
    {
      forall i | 0 <= i < |written|
        ensures Carries(written[i], (shifted + queue)[i])
      {
        if i == |shifted| {
          assert (shifted + queue)[i] == queue[0];
        }
      }
    }

    /** `new Client(opts)`: not connected, and a first connection attempt begins. */
    constructor (codec: Codec, peer: string, reconnectSeconds: Option<int>)
      ensures Valid()
      ensures this.codec == codec && this.peer == peer && this.reconnectSeconds == reconnectSeconds
      ensures !isConnected && phase == Connecting && isBusy
      ensures queue == [] && callbacks == map[] && buffer == [] && written == [] && log == []
      ensures reconnectIn == None
    {
      this.codec := codec;
      this.peer := peer;
      this.reconnectSeconds := reconnectSeconds;
      isConnected := false;
      queue := [];
      callbacks := map[];
      isBusy := true;
      phase := Connecting;
      buffer := [];
      writing := None;
      written := [];
      log := [];
      reconnectIn := None;
      shifted := [];
      stalled := false;
    }

    /** `connect(opts)` when the reconnect timer fires: a new socket, and the
        queue and pending callbacks of the previous one are dropped. */
    method Connect()
      requires Valid() && phase == Closed && writing.None?
      modifies this`phase, this`queue, this`callbacks, this`isBusy, this`buffer, this`written
      modifies this`reconnectIn, this`shifted, this`stalled
      ensures Valid()
      ensures phase == Connecting && isBusy && !isConnected
      ensures queue == [] && callbacks == map[] && buffer == [] && written == [] && writing == None
      ensures reconnectIn == None
    {
      phase := Connecting;
      queue := [];
      callbacks := map[];
      isBusy := true;
      buffer := [];
      written := [];
      reconnectIn := None;
      shifted := [];
      stalled := false;
    }

    /** The socket's 'connect' event: no longer busy and connected, but the
        queue is not drained until the next send. */
    method OnConnect()
      requires Valid() && phase == Connecting
      modifies this`isBusy, this`isConnected, this`phase, this`log
      ensures Valid()
      ensures phase == Open && isConnected && !isBusy
      ensures log == old(log) + [Connected(peer)]
    {
      isBusy := false;
      isConnected := true;
      phase := Open;
      log := log + [Connected(peer)];
    }

    /** `next()`: a no-op while busy; with an empty queue it clears busy;
        otherwise it hands the head, under a fresh id, to the socket. */
    method Next(freshId: string)
      requires Valid()
      modifies this`isBusy, this`written, this`writing
      ensures Valid()
      ensures old(isBusy) ==> isBusy && written == old(written) && writing == old(writing)
      ensures !old(isBusy) && queue == [] ==> !isBusy && written == old(written) && writing == None
      ensures !old(isBusy) && queue != [] ==>
                isBusy && writing == Some(Message(freshId, queue[0].event, queue[0].data))
                && written == old(written) + [writing.value]
    {
      if isBusy {
        return;
      }
      isBusy := true;
      if |queue| == 0 {
        isBusy := false;
        return;
      }
      var msg := Message(freshId, queue[0].event, queue[0].data);
      written := written + [msg];
      writing := Some(msg);
    }

    /** `send(event, data, callback)`: refused with a CONNECTION error when not
        connected and a callback is given; otherwise appended at the tail, and
        the queue is drained. */
    method Send(event: string, data: Data, callback: Option<Handler>, freshId: string)
      requires Valid()
      modifies this`log, this`queue, this`isBusy, this`written, this`writing
      ensures Valid()
      ensures !old(isConnected) && callback.Some? ==>
                && queue == old(queue) && log == old(log) + [Refused(callback.value)]
                && written == old(written) && writing == old(writing) && isBusy == old(isBusy)
      ensures old(isConnected) || callback.None? ==>
                && queue == old(queue) + [Outgoing(event, data, callback)] && log == old(log)
                && (old(isBusy) ==> isBusy && written == old(written) && writing == old(writing))
                && (!old(isBusy) ==> isBusy && writing == Some(Message(freshId, queue[0].event, queue[0].data))
                                     && written == old(written) + [writing.value])
    {
      if !isConnected && callback.Some? {
        log := log + [Refused(callback.value)];
        return;
      }
      queue := queue + [Outgoing(event, data, callback)];
      Next(freshId);
    }

    /** The write callback. On an error the head stays, busy stays set and the
        queue stalls. On success the callback, if any, is registered under the
        id the message was sent with, 'send' is emitted, the head is shifted
        off, and the queue is drained again. */
    method WriteComplete(ok: bool, freshId: string)
      requires Valid() && writing.Some?
      modifies this`log, this`writing, this`stalled, this`callbacks, this`shifted, this`queue
      modifies this`isBusy, this`written
      ensures Valid()
      ensures !ok ==>
                && stalled && isBusy && writing == None
                && queue == old(queue) && callbacks == old(callbacks) && written == old(written)
                && log == old(log) + [Failure(WriteFailed)]
      ensures ok ==>
                var sent := old(writing).value;
                var head := old(queue)[0];
                && shifted == old(shifted) + [head]
                && queue == old(queue)[1..]
                && callbacks == (if head.callback.Some? then old(callbacks)[sent.id := head.callback.value] else old(callbacks))
                && log == old(log) + [ClientSent(head)]
                && (queue == [] ==> !isBusy && writing == None && written == old(written))
                && (queue != [] ==> isBusy && writing == Some(Message(freshId, queue[0].event, queue[0].data))
                                    && written == old(written) + [writing.value])
    {
      if !ok {
        log := log + [Failure(WriteFailed)];
        writing := None;
        stalled := true;
        return;
      }
      ShiftHead();
      Next(freshId);
    }

    /** The successful part of the write callback before draining resumes:
        the head's callback is registered, 'send' is emitted, the head is
        shifted off and busy is cleared. */
    method ShiftHead()
      requires Valid() && writing.Some?
      modifies this`log, this`writing, this`callbacks, this`shifted, this`queue, this`isBusy
      ensures Valid() && !isBusy && writing == None
      ensures var sent := old(writing).value;
              var head := old(queue)[0];
              && shifted == old(shifted) + [head]
              && queue == old(queue)[1..]
              && callbacks == (if head.callback.Some? then old(callbacks)[sent.id := head.callback.value] else old(callbacks))
              && log == old(log) + [ClientSent(head)]
    {
      var sent := writing.value;
      var head := queue[0];
      if head.callback.Some? {
        callbacks := callbacks[sent.id := head.callback.value];
      }
      log := log + [ClientSent(head)];
      shifted := shifted + [head];
      queue := queue[1..];
      isBusy := false;
      writing := None;
    }

    /** One packet of a 'data' event: a packet that failed to decode reports an
        'error'; a reply whose id is pending resolves and forgets its callback;
        any other non-ACK message is emitted and answered with an ACK, which
        joins the queue like any send. */
    method Handle(d: Option<Message>, freshId: string)
      requires Valid()
      modifies this`log, this`callbacks, this`queue, this`isBusy, this`written, this`writing
      ensures Valid()
      ensures var s := Dispatch.ClientDispatch(old(callbacks), d);
              && callbacks == s.callbacks
              && log == old(log) + s.obs
              && queue == old(queue) + s.acks
              && (isBusy, written, writing) == Drained(queue, old(isBusy), old(written), old(writing), s.acks != [], freshId)
    {
      match d {
        case None =>
          log := log + [Failure(DecodeFailed)];
        case Some(m) =>
          log := log + [Received(m)];
          if m.id in callbacks {
            Collections.AppendAssociates(old(log), [Received(m)], [Replied(callbacks[m.id], m.data)]);
            log := log + [Replied(callbacks[m.id], m.data)];
            callbacks := callbacks - {m.id};
          } else if m.event != Ack {
            Collections.AppendAssociates(old(log), [Received(m)], [AppEvent(m.event, m.data, None)]);
            log := log + [AppEvent(m.event, m.data, None)];
            Send(Ack, Ref(m.id, m.event), None, freshId);
          }
      }
    }

    /** The packets of one chunk, decoded and handled in turn; a packet that
        fails to decode does not stop the ones after it. */
    method HandleAll(packets: seq<string>, freshId: string)
      requires Valid()
      modifies this`log, this`callbacks, this`queue, this`isBusy, this`written, this`writing
      ensures Valid()
      ensures var r := Dispatch.ClientReceive(old(callbacks), DecodeAll(codec, packets));
              && callbacks == r.callbacks
              && log == old(log) + r.obs
              && queue == old(queue) + r.acks
              && (isBusy, written, writing) == Drained(queue, old(isBusy), old(written), old(writing), r.acks != [], freshId)
    {
      ghost var ds := DecodeAll(codec, packets);
      ghost var cb0, log0, queue0, busy0, written0, writing0 := callbacks, log, queue, isBusy, written, writing;
      ghost var st := Dispatch.ClientReceive(callbacks, []);
      var i := 0;
      while i < |packets|
        invariant 0 <= i <= |packets|
        invariant Valid()
        invariant st == Dispatch.ClientReceive(cb0, ds[..i])
        invariant callbacks == st.callbacks && log == log0 + st.obs && queue == queue0 + st.acks
        invariant (isBusy, written, writing) == Drained(queue, busy0, written0, writing0, st.acks != [], freshId)
      {
        Dispatch.ClientReceiveStep(cb0, ds, i);
        ghost var s := Dispatch.ClientDispatch(st.callbacks, ds[i]);
        DrainedTwice(queue0, st.acks, s.acks, busy0, written0, writing0, freshId);
        Collections.AppendAssociates(log0, st.obs, s.obs);
        Collections.AppendAssociates(queue0, st.acks, s.acks);
        Handle(Decode(codec, packets[i]), freshId);
        st := Dispatch.ClientStep(s.callbacks, st.obs + s.obs, st.acks + s.acks);
        i := i + 1;
      }
      assert ds[..|packets|] == ds;
    }

    /** The socket's 'data' event: the chunk is appended to the buffer, the
        complete packets are handled, and what follows the last delimiter is
        kept for the next chunk. */
    method OnData(chunk: string, freshId: string)
      requires Valid() && phase == Open
      modifies this`buffer, this`log, this`callbacks, this`queue, this`isBusy, this`written, this`writing
      ensures Valid()
      ensures var re := Framing.Reassemble(old(buffer), chunk);
              var r := Dispatch.ClientReceive(old(callbacks), DecodeAll(codec, re.packets));
              && buffer == re.rest
              && callbacks == r.callbacks
              && log == old(log) + r.obs
              && queue == old(queue) + r.acks
              && (isBusy, written, writing) == Drained(queue, old(isBusy), old(written), old(writing), r.acks != [], freshId)
    {
      var re := Framing.Reassemble(buffer, chunk);
      buffer := re.rest;
      HandleAll(re.packets, freshId);
    }

    /** The socket's 'close' event: a reconnect is scheduled, and 'disconnect'
        is emitted only if the client was connected; it ends not connected. */
    method OnClose()
      requires Valid() && phase != Closed
      modifies this`reconnectIn, this`isConnected, this`log, this`phase
      ensures Valid()
      ensures phase == Closed && !isConnected
      ensures reconnectIn == Some(ReconnectDelay(reconnectSeconds))
      ensures log == old(log) + (if old(isConnected) then [Disconnected(peer)] else [])
    {
      reconnectIn := Some(ReconnectDelay(reconnectSeconds));
      if isConnected {
        isConnected := false;
        log := log + [Disconnected(peer)];
      }
      isConnected := false;
      phase := Closed;
    }
  }
}

=== FILE: collections.dfy ===
/** Facts about sequences and maps that the engines' loops cite explicitly. */
module Collections {
  /** Appending is associative. */
  lemma AppendAssociates<T>(a: seq<T>, b: seq<T>, c: seq<T>)
    ensures a + b + c == a + (b + c)
  {
  }

  /** Removing the keys listed in `a`, then those listed in `b`, removes the
      keys listed in `a + b`. */
  lemma RemoveListed<K, V>(m: map<K, V>, a: seq<K>, b: seq<K>)
    ensures m - (set k | k in a) - (set k | k in b) == m - (set k | k in a + b)
  {
    assert (set k | k in a + b) == (set k | k in a) + (set k | k in b);
  }
}

=== FILE: dispatch.dfy ===
/** What each peer does with the packets one data chunk completes, as pure
    functions: a packet that does not decode reports an 'error' and is skipped,
    and every other one is emitted as 'receive' and then dispatched. The client
    resolves a pending reply callback or emits the event and answers it with an
    ACK; the server unlinks the outbox file an ACK names (in durable mode) or
    emits the event. The receive loops in the classes are proved against the
    folds `ClientReceive` and `ServerReceive`. */
module Dispatch {
  import opened Wrappers
  import opened Protocol
  import Outbox

  // ---------------------------------------------------------------------------
  // Observations, filtered

  /** The messages of the 'receive' observations, in order. */
  function Receipts(obs: seq<Observation>): seq<Message>
    decreases |obs|
  {
    if obs == [] then []
    else Receipts(obs[..|obs| - 1]) + (if obs[|obs| - 1].Received? then [obs[|obs| - 1].msg] else [])
  }

  /** The number of decode 'error' observations. */
  function DecodeFaults(obs: seq<Observation>): nat
    decreases |obs|
  {
    if obs == [] then 0
    else DecodeFaults(obs[..|obs| - 1]) + (if obs[|obs| - 1] == Failure(DecodeFailed) then 1 else 0)
  }

  /** The reply-callback invocations, in order. */
  function Replies(obs: seq<Observation>): seq<Observation>
    decreases |obs|
  {
    if obs == [] then []
    else Replies(obs[..|obs| - 1]) + (if obs[|obs| - 1].Replied? then [obs[|obs| - 1]] else [])
  }

  /** The application events emitted, in order. */
  function AppEvents(obs: seq<Observation>): seq<Observation>
    decreases |obs|
  {
    if obs == [] then []
    else AppEvents(obs[..|obs| - 1]) + (if obs[|obs| - 1].AppEvent? then [obs[|obs| - 1]] else [])
  }

  lemma {:induction false} FiltersAppend(a: seq<Observation>, b: seq<Observation>)
    ensures Receipts(a + b) == Receipts(a) + Receipts(b)
    ensures DecodeFaults(a + b) == DecodeFaults(a) + DecodeFaults(b)
    ensures Replies(a + b) == Replies(a) + Replies(b)
    ensures AppEvents(a + b) == AppEvents(a) + AppEvents(b)
    decreases |b|
  {
    if b == [] {
      assert a + b == a;
    } else {
      assert (a + b)[..|a + b| - 1] == a + b[..|b| - 1];
      FiltersAppend(a, b[..|b| - 1]);
    }
  }

  // ---------------------------------------------------------------------------
  // Decoded packets, filtered

  /** The packets that decoded, in order. */
  function Messages(ds: seq<Option<Message>>): seq<Message>
    decreases |ds|
  {
    if ds == [] then []
    else Messages(ds[..|ds| - 1]) + (if ds[|ds| - 1].Some? then [ds[|ds| - 1].value] else [])
  }

  /** The ids of the packets that decoded. */
  function IdsOf(ds: seq<Option<Message>>): set<string>
    decreases |ds|
  {
    if ds == [] then {}
    else IdsOf(ds[..|ds| - 1]) + (if ds[|ds| - 1].Some? then {ds[|ds| - 1].value.id} else {})
  }

  // ---------------------------------------------------------------------------
  // Client

  /** The effect of some packets on the client: the pending-callback map after
      them, what was emitted, and the ACK entries to enqueue. */
  datatype ClientStep = ClientStep(callbacks: map<string, Handler>, obs: seq<Observation>, acks: seq<Outgoing>)

  /** The queue entry `send('ACK', {id, event})` creates for a received message. */
  function AckFor(m: Message): (o: Outgoing)
    ensures o.event == Ack && o.callback.None?
    ensures o.data.Ref? && o.data.id == m.id && o.data.event == m.event
  {
    Outgoing(Ack, Ref(m.id, m.event), None)
  }

  /** One packet at the client. */
  function ClientDispatch(callbacks: map<string, Handler>, d: Option<Message>): (s: ClientStep)
    ensures s.obs != [] && s.obs[0] == (if d.Some? then Received(d.value) else Failure(DecodeFailed))
    ensures s.acks == (if d.Some? && d.value.id !in callbacks && d.value.event != Ack then [AckFor(d.value)] else [])
  {
    match d
    case None => ClientStep(callbacks, [Failure(DecodeFailed)], [])
    case Some(m) =>
      if m.id in callbacks then
        ClientStep(callbacks - {m.id}, [Received(m), Replied(callbacks[m.id], m.data)], [])
      else if m.event != Ack then
        ClientStep(callbacks, [Received(m), AppEvent(m.event, m.data, None)], [AckFor(m)])
      else
        ClientStep(callbacks, [Received(m)], [])
  }

  /** The packets of one chunk at the client, in order. */
  function ClientReceive(callbacks: map<string, Handler>, ds: seq<Option<Message>>): (r: ClientStep)
    ensures r.callbacks.Keys <= callbacks.Keys
    ensures |r.acks| <= |ds|
    decreases |ds|
  {
    if ds == [] then ClientStep(callbacks, [], [])
    else
      var r := ClientReceive(callbacks, ds[..|ds| - 1]);
      var s := ClientDispatch(r.callbacks, ds[|ds| - 1]);
      ClientStep(s.callbacks, r.obs + s.obs, r.acks + s.acks)
  }

  /** One more packet at the client: the step after the first `i + 1` packets
      is the step after the first `i`, followed by the dispatch of packet `i`. */
  lemma ClientReceiveStep(callbacks: map<string, Handler>, ds: seq<Option<Message>>, i: nat)
    requires i < |ds|
    ensures var r := ClientReceive(callbacks, ds[..i]);
            var s := ClientDispatch(r.callbacks, ds[i]);
            ClientReceive(callbacks, ds[..i + 1]) == ClientStep(s.callbacks, r.obs + s.obs, r.acks + s.acks)
  {
    assert ds[..i + 1][..i] == ds[..i];
  }

  /** Reference definition of what the client answers: the decoded non-ACK
      messages whose id was not pending when they arrived, because no callback
      was registered for it or an earlier packet already consumed it. */
  function Unexpected(callbacks: map<string, Handler>, ds: seq<Option<Message>>): seq<Message>
    decreases |ds|
  {
    if ds == [] then []
    else
      var init := ds[..|ds| - 1];
      Unexpected(callbacks, init) +
        match ds[|ds| - 1]
        case None => []
        case Some(m) => if m.event != Ack && (m.id !in callbacks || m.id in IdsOf(init)) then [m] else []
  }

  /** One packet more at the end of a batch at the client. */
  lemma ClientReceiveSnoc(callbacks: map<string, Handler>, ds: seq<Option<Message>>, d: Option<Message>)
    ensures var r := ClientReceive(callbacks, ds);
            var s := ClientDispatch(r.callbacks, d);
            ClientReceive(callbacks, ds + [d]) == ClientStep(s.callbacks, r.obs + s.obs, r.acks + s.acks)
  {
    assert (ds + [d])[..|ds|] == ds;
  }

  /** The inductive step of `ClientReceiveAppend`, on the steps themselves:
      one more packet after a composed step is one more packet after its second half. */
  lemma ClientReceiveAppendStep(ra: ClientStep, rb: ClientStep, rab: ClientStep, d: Option<Message>)
    requires rab == ClientStep(rb.callbacks, ra.obs + rb.obs, ra.acks + rb.acks)
    ensures var s := ClientDispatch(rab.callbacks, d);
            ClientStep(s.callbacks, rab.obs + s.obs, rab.acks + s.acks)
              == ClientStep(ClientDispatch(rb.callbacks, d).callbacks, ra.obs + (rb.obs + s.obs), ra.acks + (rb.acks + s.acks))
  {
  }

  /** Processing a batch at the client is processing its two halves one after the other. */
  lemma {:induction false} ClientReceiveAppend(callbacks: map<string, Handler>, a: seq<Option<Message>>, b: seq<Option<Message>>)
    ensures var ra := ClientReceive(callbacks, a);
            var rb := ClientReceive(ra.callbacks, b);
            ClientReceive(callbacks, a + b) == ClientStep(rb.callbacks, ra.obs + rb.obs, ra.acks + rb.acks)
    decreases |b|
  {
    if b == [] {
      assert a + b == a;
    } else {
      var b', last := b[..|b| - 1], b[|b| - 1];
      ClientReceiveAppend(callbacks, a, b');
      assert b' + [last] == b;
      assert a + b == (a + b') + [last];
      ClientReceiveSnoc(callbacks, a + b', last);
      var ra := ClientReceive(callbacks, a);
      ClientReceiveSnoc(ra.callbacks, b', last);
      ClientReceiveAppendStep(ra, ClientReceive(ra.callbacks, b'), ClientReceive(callbacks, a + b'), last);
    }
  }

  /** Decode-failure isolation at the client: a packet that fails to decode adds
      one 'error' and nothing else; the packets before and after it in the same
      chunk are handled exactly as if it were not there. */
  lemma DecodeFailureIsolatedAtClient(callbacks: map<string, Handler>, a: seq<Option<Message>>, b: seq<Option<Message>>)
    ensures var ra := ClientReceive(callbacks, a);
            var rb := ClientReceive(ra.callbacks, b);
            var with := ClientReceive(callbacks, a + [None] + b);
            var without := ClientReceive(callbacks, a + b);
            && with.callbacks == without.callbacks
            && with.acks == without.acks
            && with.obs == ra.obs + [Failure(DecodeFailed)] + rb.obs
            && without.obs == ra.obs + rb.obs
  {
    var ra := ClientReceive(callbacks, a);
    var rb := ClientReceive(ra.callbacks, b);
    var none: seq<Option<Message>> := [None];
    assert none[..0] == [];
    assert ClientReceive(ra.callbacks, none) == ClientStep(ra.callbacks, [Failure(DecodeFailed)], []);
    ClientReceiveAppend(callbacks, a, none);
    var ran := ClientReceive(callbacks, a + none);
    assert ran == ClientStep(ra.callbacks, ra.obs + [Failure(DecodeFailed)], ra.acks + []);
    assert ra.acks + [] == ra.acks;
    ClientReceiveAppend(callbacks, a + none, b);
    ClientReceiveAppend(callbacks, a, b);
  }

  lemma OneObservation(o: Observation)
    ensures Receipts([o]) == (if o.Received? then [o.msg] else [])
    ensures DecodeFaults([o]) == (if o == Failure(DecodeFailed) then 1 else 0)
    ensures Replies([o]) == (if o.Replied? then [o] else [])
    ensures AppEvents([o]) == (if o.AppEvent? then [o] else [])
  {
    assert [o][..0] == [];
  }

  lemma PairObservations(o0: Observation, o1: Observation)
    ensures Receipts([o0, o1]) == Receipts([o0]) + Receipts([o1])
    ensures DecodeFaults([o0, o1]) == DecodeFaults([o0]) + DecodeFaults([o1])
    ensures Replies([o0, o1]) == Replies([o0]) + Replies([o1])
    ensures AppEvents([o0, o1]) == AppEvents([o0]) + AppEvents([o1])
  {
    assert [o0, o1] == [o0] + [o1];
    FiltersAppend([o0], [o1]);
  }

  lemma ClientDispatchFilters(callbacks: map<string, Handler>, d: Option<Message>)
    ensures var s := ClientDispatch(callbacks, d);
            && Receipts(s.obs) == (if d.Some? then [d.value] else [])
            && DecodeFaults(s.obs) == (if d.None? then 1 else 0)
            && Replies(s.obs) == (if d.Some? && d.value.id in callbacks
                                  then [Replied(callbacks[d.value.id], d.value.data)] else [])
            && AppEvents(s.obs) == (if d.Some? && d.value.id !in callbacks && d.value.event != Ack
                                    then [AppEvent(d.value.event, d.value.data, None)] else [])
  {
    var s := ClientDispatch(callbacks, d);
    match d
    case None =>
      assert s.obs == [Failure(DecodeFailed)];
      OneObservation(Failure(DecodeFailed));
    case Some(m) =>
      OneObservation(Received(m));
      if m.id in callbacks {
        var o := Replied(callbacks[m.id], m.data);
        assert s.obs == [Received(m), o];
        PairObservations(Received(m), o);
        OneObservation(o);
      } else if m.event != Ack {
        var o := AppEvent(m.event, m.data, None);
        assert s.obs == [Received(m), o];
        PairObservations(Received(m), o);
        OneObservation(o);
      } else {
        assert s.obs == [Received(m)];
      }
  }

  /** At the client every packet that decodes is emitted as 'receive', in
      order, and every other one as one 'error'. */
  lemma {:induction false} ClientReceipts(callbacks: map<string, Handler>, ds: seq<Option<Message>>)
    ensures var r := ClientReceive(callbacks, ds);
            && Receipts(r.obs) == Messages(ds)
            && DecodeFaults(r.obs) == |ds| - |Messages(ds)|
    decreases |ds|
  {
    if ds != [] {
      var init, d := ds[..|ds| - 1], ds[|ds| - 1];
      ClientReceipts(callbacks, init);
      var r := ClientReceive(callbacks, init);
      var s := ClientDispatch(r.callbacks, d);
      assert ClientReceive(callbacks, ds).obs == r.obs + s.obs;
      FiltersAppend(r.obs, s.obs);
      ClientDispatchFilters(r.callbacks, d);
      assert Messages(ds) == Messages(init) + (if d.Some? then [d.value] else []);
    }
  }

  /** At the client the pending callbacks left after a chunk are exactly those
      whose id did not arrive in it. */
  lemma {:induction false} ClientCallbacksLeft(callbacks: map<string, Handler>, ds: seq<Option<Message>>)
    ensures ClientReceive(callbacks, ds).callbacks == callbacks - IdsOf(ds)
    decreases |ds|
  {
    if ds != [] {
      var init, d := ds[..|ds| - 1], ds[|ds| - 1];
      ClientCallbacksLeft(callbacks, init);
      assert IdsOf(ds) == IdsOf(init) + (if d.Some? then {d.value.id} else {});
    }
  }

  /** At the client as many callbacks are invoked as there are pending ids that
      arrive in the chunk; `ClientRepliesExactly` says which ones, in which
      order and with what data. */
  lemma {:induction false} ClientRepliesOnce(callbacks: map<string, Handler>, ds: seq<Option<Message>>)
    ensures |Replies(ClientReceive(callbacks, ds).obs)| == |callbacks.Keys * IdsOf(ds)|
    decreases |ds|
  {
    if ds != [] {
      var init, d := ds[..|ds| - 1], ds[|ds| - 1];
      ClientRepliesOnce(callbacks, init);
      var r := ClientReceive(callbacks, init);
      var s := ClientDispatch(r.callbacks, d);
      var hit := if d.Some? && d.value.id in callbacks && d.value.id !in IdsOf(init) then 1 else 0;
      assert |Replies(ClientReceive(callbacks, ds).obs)| == |Replies(r.obs)| + hit by {
        FiltersAppend(r.obs, s.obs);
        ClientCallbacksLeft(callbacks, init);
        ClientDispatchFilters(r.callbacks, d);
      }
      assert |callbacks.Keys * IdsOf(ds)| == |callbacks.Keys * IdsOf(init)| + hit by {
        if d.Some? {
          assert IdsOf(ds) == IdsOf(init) + {d.value.id};
          PendingGrows(callbacks.Keys, IdsOf(init), d.value.id);
        } else {
          assert IdsOf(ds) == IdsOf(init) + {};
          assert IdsOf(init) + {} == IdsOf(init);
        }
      }
    }
  }

  lemma PendingGrows(keys: set<string>, seen: set<string>, x: string)
    ensures |keys * (seen + {x})| == |keys * seen| + (if x in keys && x !in seen then 1 else 0)
  {
    if x in keys && x !in seen {
      assert keys * (seen + {x}) == (keys * seen) + {x};
    } else {
      assert keys * (seen + {x}) == keys * seen;
    }
  }

  /** At the client an ACK is enqueued for exactly the unexpected non-ACK
      messages of a chunk, in order. */
  lemma {:induction false} ClientAcksUnexpected(callbacks: map<string, Handler>, ds: seq<Option<Message>>)
    ensures var r := ClientReceive(callbacks, ds);
            && |r.acks| == |Unexpected(callbacks, ds)|
            && forall k :: 0 <= k < |r.acks| ==> r.acks[k] == AckFor(Unexpected(callbacks, ds)[k])
    decreases |ds|
  {
    if ds != [] {
      var init := ds[..|ds| - 1];
      ClientAcksUnexpected(callbacks, init);
      ClientCallbacksLeft(callbacks, init);
    }
  }

  /** At the client, a reply to a pending request is never acknowledged, and an
      unexpected non-ACK message always is. */
  lemma ClientAnswersUnexpected(callbacks: map<string, Handler>, m: Message)
    ensures ClientDispatch(callbacks, Some(m)).acks == (if m.id !in callbacks && m.event != Ack then [AckFor(m)] else [])
    ensures m.id in callbacks ==> ClientDispatch(callbacks, Some(m)).callbacks.Keys == callbacks.Keys - {m.id}
  {
  }

  /** Reference definition of the replies: for each decoded message whose id
      was pending and did not arrive earlier in the chunk, its callback called
      with the message's data. */
  function Answered(callbacks: map<string, Handler>, ds: seq<Option<Message>>): seq<Observation>
    decreases |ds|
  {
    if ds == [] then []
    else
      var init := ds[..|ds| - 1];
      Answered(callbacks, init) +
        match ds[|ds| - 1]
        case None => []
        case Some(m) => if m.id in callbacks && m.id !in IdsOf(init) then [Replied(callbacks[m.id], m.data)] else []
  }

  /** At the client the callbacks invoked for a chunk are, in order, the pending
      callback of each reply whose id arrives, called with that reply's data. */
  lemma {:induction false} ClientRepliesExactly(callbacks: map<string, Handler>, ds: seq<Option<Message>>)
    ensures Replies(ClientReceive(callbacks, ds).obs) == Answered(callbacks, ds)
    decreases |ds|
  {
    if ds != [] {
      var init, d := ds[..|ds| - 1], ds[|ds| - 1];
      ClientRepliesExactly(callbacks, init);
      var r := ClientReceive(callbacks, init);
      var s := ClientDispatch(r.callbacks, d);
      var extra := match d
        case None => []
        case Some(m) => if m.id in callbacks && m.id !in IdsOf(init) then [Replied(callbacks[m.id], m.data)] else [];
      assert Replies(ClientReceive(callbacks, ds).obs) == Replies(r.obs) + extra by {
        FiltersAppend(r.obs, s.obs);
        ClientCallbacksLeft(callbacks, init);
        ClientDispatchFilters(r.callbacks, d);
      }
    }
  }

  /** The application events the client emits for some messages: `emit(event, data)`. */
  function ClientEvents(ms: seq<Message>): seq<Observation>
    decreases |ms|
  {
    if ms == [] then []
    else
      var m := ms[|ms| - 1];
      ClientEvents(ms[..|ms| - 1]) + [AppEvent(m.event, m.data, None)]
  }

  /** At the client the application events of a chunk are, in order, one per
      unexpected non-ACK message, carrying its event and data. */
  lemma {:induction false} ClientEmitsUnexpected(callbacks: map<string, Handler>, ds: seq<Option<Message>>)
    ensures AppEvents(ClientReceive(callbacks, ds).obs) == ClientEvents(Unexpected(callbacks, ds))
    decreases |ds|
  {
    if ds != [] {
      var init, d := ds[..|ds| - 1], ds[|ds| - 1];
      ClientEmitsUnexpected(callbacks, init);
      var r := ClientReceive(callbacks, init);
      var s := ClientDispatch(r.callbacks, d);
      var before := Unexpected(callbacks, init);
      var emits := d.Some? && d.value.event != Ack && (d.value.id !in callbacks || d.value.id in IdsOf(init));
      var extra := if emits then [AppEvent(d.value.event, d.value.data, None)] else [];
      assert AppEvents(ClientReceive(callbacks, ds).obs) == ClientEvents(before) + extra by {
        FiltersAppend(r.obs, s.obs);
        ClientCallbacksLeft(callbacks, init);
        ClientDispatchFilters(r.callbacks, d);
      }
      assert ClientEvents(Unexpected(callbacks, ds)) == ClientEvents(before) + extra by {
        if emits {
          assert Unexpected(callbacks, ds) == before + [d.value];
          assert (before + [d.value])[..|before|] == before;
        } else {
          assert Unexpected(callbacks, ds) == before + [];
          assert before + [] == before;
        }
      }
    }
  }

  // ---------------------------------------------------------------------------
  // Client, as written: the pending-callback lookup is `msg.id in callbacks` on
  // a plain object, which also finds the names every object inherits.

  /** Names every plain object inherits from Object.prototype whose call with
      one argument returns normally. */
  const InheritedNames: set<string> :=
    {"constructor", "hasOwnProperty", "isPrototypeOf", "propertyIsEnumerable", "toLocaleString", "toString", "valueOf",
     "__lookupGetter__", "__lookupSetter__"}

  /** One packet at the client as the source looks callbacks up: an inherited
      name counts as pending, the inherited method is called, the `delete`
      removes nothing, and the message is neither emitted nor acknowledged. */
  function ClientDispatchAsWritten(callbacks: map<string, Handler>, d: Option<Message>): (s: ClientStep)
    ensures d.None? || d.value.id in callbacks || d.value.id !in InheritedNames ==> s == ClientDispatch(callbacks, d)
    ensures d.Some? && d.value.id !in callbacks && d.value.id in InheritedNames ==>
              s.callbacks == callbacks && s.obs == [Received(d.value)] && s.acks == []
  {
    match d
    case Some(m) =>
      if m.id !in callbacks && m.id in InheritedNames then ClientStep(callbacks, [Received(m)], [])
      else ClientDispatch(callbacks, d)
    case None => ClientDispatch(callbacks, d)
  }

  /** A message whose id is "toString", with no request pending, is swallowed as
      written, while the lookup of own keys emits and acknowledges it. */
  lemma InheritedIdSwallowed(data: Data)
    ensures var m := Message("toString", "greet", data);
            && ClientDispatchAsWritten(map[], Some(m)).acks == []
            && AppEvents(ClientDispatchAsWritten(map[], Some(m)).obs) == []
            && ClientDispatch(map[], Some(m)).acks == [AckFor(m)]
  {
    var m := Message("toString", "greet", data);
    assert [Received(m)][..0] == [];
  }

  // ---------------------------------------------------------------------------
  // Server

  /** The effect of some packets on the server: what was emitted and the
      outbox files to unlink. The server never enqueues anything in reply. */
  datatype ServerStep = ServerStep(obs: seq<Observation>, unlinks: seq<string>)

  /** One packet at the server; `durable` is `!!opts.dir`. */
  function ServerDispatch(durable: bool, d: Option<Message>): (s: ServerStep)
    ensures s.obs != [] && s.obs[0] == (if d.Some? then Received(d.value) else Failure(DecodeFailed))
    ensures s.unlinks == (if durable && d.Some? && d.value.event == Ack then [Outbox.AckTarget(d.value.data)] else [])
  {
    match d
    case None => ServerStep([Failure(DecodeFailed)], [])
    case Some(m) =>
      if m.event == Ack && durable then ServerStep([Received(m)], [Outbox.AckTarget(m.data)])
      else ServerStep([Received(m), AppEvent(m.event, m.data, Some(m.id))], [])
  }

  /** The packets of one chunk at the server, in order. */
  function ServerReceive(durable: bool, ds: seq<Option<Message>>): (r: ServerStep)
    ensures |r.unlinks| <= |ds|
    ensures !durable ==> r.unlinks == []
    decreases |ds|
  {
    if ds == [] then ServerStep([], [])
    else
      var r := ServerReceive(durable, ds[..|ds| - 1]);
      var s := ServerDispatch(durable, ds[|ds| - 1]);
      ServerStep(r.obs + s.obs, r.unlinks + s.unlinks)
  }

  /** Reference definition: the files named by the decoded ACKs, in order. */
  function AckTargets(ds: seq<Option<Message>>): seq<string>
    decreases |ds|
  {
    if ds == [] then []
    else
      AckTargets(ds[..|ds| - 1]) +
        match ds[|ds| - 1]
        case Some(m) => if m.event == Ack then [Outbox.AckTarget(m.data)] else []
        case None => []
  }

  lemma ServerDispatchFilters(durable: bool, d: Option<Message>)
    ensures var s := ServerDispatch(durable, d);
            && Receipts(s.obs) == (if d.Some? then [d.value] else [])
            && DecodeFaults(s.obs) == (if d.None? then 1 else 0)
            && AppEvents(s.obs) == (if d.Some? && !(d.value.event == Ack && durable)
                                    then [AppEvent(d.value.event, d.value.data, Some(d.value.id))] else [])
  {
    var s := ServerDispatch(durable, d);
    OneObservation(s.obs[0]);
    if |s.obs| == 2 {
      PairObservations(s.obs[0], s.obs[1]);
      OneObservation(s.obs[1]);
      assert s.obs == [s.obs[0], s.obs[1]];
    } else {
      assert s.obs == [s.obs[0]];
    }
  }

  /** What a chunk does to the server: every decoded packet is emitted as
      'receive' in order and every other one as one 'error'; in durable mode
      each ACK unlinks its file and every other message is emitted as an
      application event; without a directory nothing is unlinked. */
  lemma {:induction false} ServerReceiveSpec(durable: bool, ds: seq<Option<Message>>)
    ensures var r := ServerReceive(durable, ds);
            && Receipts(r.obs) == Messages(ds)
            && DecodeFaults(r.obs) == |ds| - |Messages(ds)|
            && r.unlinks == (if durable then AckTargets(ds) else [])
            && |AppEvents(r.obs)| + |r.unlinks| == |Messages(ds)|
    decreases |ds|
  {
    if ds != [] {
      var init, d := ds[..|ds| - 1], ds[|ds| - 1];
      ServerReceiveSpec(durable, init);
      var r := ServerReceive(durable, init);
      var s := ServerDispatch(durable, d);
      assert ServerReceive(durable, ds).obs == r.obs + s.obs;
      FiltersAppend(r.obs, s.obs);
      ServerDispatchFilters(durable, d);
      assert Messages(ds) == Messages(init) + (if d.Some? then [d.value] else []);
    }
  }

  /** The application event the server emits for a message: `emit(event, data, id)`. */
  function EventFor(m: Message): Observation
  {
    AppEvent(m.event, m.data, Some(m.id))
  }

  /** Without a directory the server emits every decoded message, ACKs included,
      as an application event with its id, in order. */
  lemma {:induction false} ServerEmitsAllWithoutDir(ds: seq<Option<Message>>)
    ensures var events := AppEvents(ServerReceive(false, ds).obs);
            var ms := Messages(ds);
            && |events| == |ms|
            && forall k :: 0 <= k < |ms| ==> events[k] == EventFor(ms[k])
    decreases |ds|
  {
    ServerEmitsUnlessUnlinked(false, ds);
    EmittedWithoutDir(ds);
    ServerEventsPointwise(Messages(ds));
  }

  /** Without a directory nothing is held back from emission. */
  lemma {:induction false} EmittedWithoutDir(ds: seq<Option<Message>>)
    ensures Emitted(false, ds) == Messages(ds)
    decreases |ds|
  {
    if ds != [] {
      EmittedWithoutDir(ds[..|ds| - 1]);
    }
  }

  /** The events for some messages are one per message, in order. */
  lemma {:induction false} ServerEventsPointwise(ms: seq<Message>)
    ensures |ServerEvents(ms)| == |ms|
    ensures forall k :: 0 <= k < |ms| ==> ServerEvents(ms)[k] == EventFor(ms[k])
    decreases |ms|
  {
    if ms != [] {
      var init := ms[..|ms| - 1];
      ServerEventsPointwise(init);
      assert forall k :: 0 <= k < |init| ==> ms[k] == init[k];
    }
  }

  /** Reference definition of what the server emits as application events: the
      decoded messages, in order, except the ACKs of a durable server. */
  function Emitted(durable: bool, ds: seq<Option<Message>>): seq<Message>
    decreases |ds|
  {
    if ds == [] then []
    else
      Emitted(durable, ds[..|ds| - 1]) +
        match ds[|ds| - 1]
        case Some(m) => if m.event == Ack && durable then [] else [m]
        case None => []
  }

  /** The application events the server emits for some messages. */
  function ServerEvents(ms: seq<Message>): seq<Observation>
    decreases |ms|
  {
    if ms == [] then [] else ServerEvents(ms[..|ms| - 1]) + [EventFor(ms[|ms| - 1])]
  }

  /** At the server, in either mode, the application events of a chunk are, in
      order, `emit(event, data, id)` for every decoded message except the ACKs
      a durable server turns into unlinks. */
  lemma {:induction false} ServerEmitsUnlessUnlinked(durable: bool, ds: seq<Option<Message>>)
    ensures AppEvents(ServerReceive(durable, ds).obs) == ServerEvents(Emitted(durable, ds))
    decreases |ds|
  {
    if ds != [] {
      var init, d := ds[..|ds| - 1], ds[|ds| - 1];
      ServerEmitsUnlessUnlinked(durable, init);
      var r := ServerReceive(durable, init);
      var s := ServerDispatch(durable, d);
      var before := Emitted(durable, init);
      var emits := d.Some? && !(d.value.event == Ack && durable);
      var extra := if emits then [EventFor(d.value)] else [];
      assert AppEvents(ServerReceive(durable, ds).obs) == ServerEvents(before) + extra by {
        FiltersAppend(r.obs, s.obs);
        ServerDispatchFilters(durable, d);
      }
      assert ServerEvents(Emitted(durable, ds)) == ServerEvents(before) + extra by {
        if emits {
          assert Emitted(durable, ds) == before + [d.value];
          assert (before + [d.value])[..|before|] == before;
        } else {
          assert Emitted(durable, ds) == before + [];
          assert before + [] == before;
        }
      }
    }
  }

  /** One packet more at the end of a batch at the server. */
  lemma ServerReceiveSnoc(durable: bool, ds: seq<Option<Message>>, d: Option<Message>)
    ensures var r := ServerReceive(durable, ds);
            var s := ServerDispatch(durable, d);
            ServerReceive(durable, ds + [d]) == ServerStep(r.obs + s.obs, r.unlinks + s.unlinks)
  {
    assert (ds + [d])[..|ds|] == ds;
  }

  /** The inductive step of `ServerReceiveAppend`, on the steps themselves. */
  lemma ServerReceiveAppendStep(durable: bool, ra: ServerStep, rb: ServerStep, rab: ServerStep, d: Option<Message>)
    requires rab == ServerStep(ra.obs + rb.obs, ra.unlinks + rb.unlinks)
    ensures var s := ServerDispatch(durable, d);
            ServerStep(rab.obs + s.obs, rab.unlinks + s.unlinks)
              == ServerStep(ra.obs + (rb.obs + s.obs), ra.unlinks + (rb.unlinks + s.unlinks))
  {
  }

  /** Processing a batch at the server is processing its two halves one after the other. */
  lemma {:induction false} ServerReceiveAppend(durable: bool, a: seq<Option<Message>>, b: seq<Option<Message>>)
    ensures var ra := ServerReceive(durable, a);
            var rb := ServerReceive(durable, b);
            ServerReceive(durable, a + b) == ServerStep(ra.obs + rb.obs, ra.unlinks + rb.unlinks)
    decreases |b|
  {
    if b == [] {
      assert a + b == a;
    } else {
      var b', last := b[..|b| - 1], b[|b| - 1];
      ServerReceiveAppend(durable, a, b');
      assert b' + [last] == b;
      assert a + b == (a + b') + [last];
      ServerReceiveSnoc(durable, a + b', last);
      ServerReceiveSnoc(durable, b', last);
      ServerReceiveAppendStep(durable, ServerReceive(durable, a), ServerReceive(durable, b'), ServerReceive(durable, a + b'), last);
    }
  }

  /** Decode-failure isolation at the server: a packet that fails to decode adds
      one 'error' and changes nothing else. */
  lemma DecodeFailureIsolatedAtServer(durable: bool, a: seq<Option<Message>>, b: seq<Option<Message>>)
    ensures var with := ServerReceive(durable, a + [None] + b);
            var without := ServerReceive(durable, a + b);
            && with.unlinks == without.unlinks
            && with.obs == ServerReceive(durable, a).obs + [Failure(DecodeFailed)] + ServerReceive(durable, b).obs
            && without.obs == ServerReceive(durable, a).obs + ServerReceive(durable, b).obs
  {
    var ra := ServerReceive(durable, a);
    var none: seq<Option<Message>> := [None];
    assert none[..0] == [];
    assert ServerReceive(durable, none) == ServerStep([Failure(DecodeFailed)], []);
    ServerReceiveAppend(durable, a, none);
    assert ServerReceive(durable, a + none) == ServerStep(ra.obs + [Failure(DecodeFailed)], ra.unlinks + []);
    assert ra.unlinks + [] == ra.unlinks;
    ServerReceiveAppend(durable, a + none, b);
    ServerReceiveAppend(durable, a, b);
  }

  // ---------------------------------------------------------------------------
  // Both peers

  /** The durable cycle closes: the ACK the client sends for an unexpected
      message, once it reaches a durable server under any id, unlinks exactly
      the file that mirrors that message. */
  lemma AckClearsOutboxEntry(callbacks: map<string, Handler>, m: Message, ackId: string)
    requires m.id !in callbacks && m.event != Ack
    ensures var acks := ClientDispatch(callbacks, Some(m)).acks;
            && |acks| == 1
            && ServerDispatch(true, Some(Message(ackId, acks[0].event, acks[0].data))).unlinks
               == [Outbox.FileName(m.id, m.event)]
  {
  }
}

=== FILE: framing.dfy ===
/** Stream framing: every encoded message travels as one frame, its text followed
    by the delimiter `|`, and a receiver rebuilds packets out of arbitrary chunks
    by appending each chunk to a buffer, splitting on `|` and keeping the last
    piece as the new buffer. */
module Framing {

  /** The delimiter written after every encoded message. */
  const Delim: char := '|'

  /** How many times `d` occurs in `s`. */
  function Occurrences(s: string, d: char): nat
  {
    if s == [] then 0 else (if s[0] == d then 1 else 0) + Occurrences(s[1..], d)
  }

  /** The pieces, each followed by `d`, concatenated. */
  function Terminated(pieces: seq<string>, d: char): string
  {
    if pieces == [] then [] else pieces[0] + [d] + Terminated(pieces[1..], d)
  }

  /** One frame on the wire: the encoded text followed by the delimiter. */
  function Frame(text: string): (f: string)
    ensures |f| == |text| + 1 && f[..|text|] == text && f[|text|] == Delim
    ensures Delim !in text ==> Split(f, Delim) == [text, []]
  {
    assert text + [Delim] == Terminated([text], Delim) + [];
    if Delim !in text then SplitTerminated([text], [], Delim); text + [Delim]
    else text + [Delim]
  }

  /** `s.split(d)` for a one-character separator: one more piece than there
      are delimiters in `s`. */
  function Split(s: string, d: char): (pieces: seq<string>)
    ensures |pieces| == Occurrences(s, d) + 1
    decreases |s|
  {
    if s == [] then [[]]
    else
      var rest := Split(s[1..], d);
      if s[0] == d then [[]] + rest else [[s[0]] + rest[0]] + rest[1..]
  }

  /** No piece of a split holds the separator. */
  lemma {:induction false} SplitPiecesFree(s: string, d: char)
    ensures forall i :: 0 <= i < |Split(s, d)| ==> d !in Split(s, d)[i]
    decreases |s|
  {
    if s != [] {
      SplitPiecesFree(s[1..], d);
      var rest := Split(s[1..], d);
      if s[0] != d {
        assert d !in rest[0];
        assert d !in [s[0]] + rest[0];
      }
    }
  }

  /** `pieces.join(d)`: the pieces with `d` between them. */
  function Join(pieces: seq<string>, d: char): string
    requires |pieces| > 0
  {
    if |pieces| == 1 then pieces[0] else pieces[0] + [d] + Join(pieces[1..], d)
  }

  /** Joining is terminating every piece but the last. */
  lemma {:induction false} JoinTerminated(pieces: seq<string>, d: char)
    requires |pieces| > 0
    ensures Join(pieces, d) == Terminated(pieces[..|pieces| - 1], d) + pieces[|pieces| - 1]
    decreases |pieces|
  {
    if |pieces| > 1 {
      JoinTerminated(pieces[1..], d);
      assert pieces[..|pieces| - 1][1..] == pieces[1..][..|pieces| - 2];
    }
  }

  /** The pieces of a split, joined with the separator, give the original text. */
  lemma {:induction false} SplitRejoins(s: string, d: char)
    ensures Join(Split(s, d), d) == s
    decreases |s|
  {
    if s != [] {
      SplitRejoins(s[1..], d);
      var rest := Split(s[1..], d);
      assert s == [s[0]] + s[1..];
      if s[0] == d {
        assert Split(s, d)[1..] == rest;
      } else if |rest| > 1 {
        assert Split(s, d)[1..] == rest[1..];
      }
    }
  }

  /** What one data chunk yields: the complete packets and the new buffer. */
  datatype Reassembly = Reassembly(packets: seq<string>, rest: string)

  /** The receive step: split buffer + chunk on the delimiter; every piece but
      the last is a complete packet, the last becomes the buffer. */
  function Reassemble(buffer: string, chunk: string): (r: Reassembly)
    ensures Terminated(r.packets, Delim) + r.rest == buffer + chunk
    ensures Delim !in r.rest
    ensures forall i :: 0 <= i < |r.packets| ==> Delim !in r.packets[i]
    ensures |r.packets| == Occurrences(buffer + chunk, Delim)
  {
    var pieces := Split(buffer + chunk, Delim);
    SplitPiecesFree(buffer + chunk, Delim);
    SplitRejoins(buffer + chunk, Delim);
    JoinTerminated(pieces, Delim);
    Reassembly(pieces[..|pieces| - 1], pieces[|pieces| - 1])
  }

  /** The server's receive step, which returns early, keeping all of
      buffer + chunk, when it holds no delimiter. */
  function ReassembleEarly(buffer: string, chunk: string): (r: Reassembly)
    ensures Terminated(r.packets, Delim) + r.rest == buffer + chunk
    ensures Delim !in r.rest
    ensures forall i :: 0 <= i < |r.packets| ==> Delim !in r.packets[i]
    ensures |r.packets| == Occurrences(buffer + chunk, Delim)
  {
    var s := buffer + chunk;
    if Delim !in s then
      ReassemblyUnique(buffer, chunk, [], s);
      Reassembly([], s)
    else Reassemble(buffer, chunk)
  }

  lemma {:induction false} TerminatedAppend(a: seq<string>, b: seq<string>, d: char)
    ensures Terminated(a + b, d) == Terminated(a, d) + Terminated(b, d)
    decreases |a|
  {
    if a != [] {
      assert (a + b)[1..] == a[1..] + b;
      TerminatedAppend(a[1..], b, d);
    } else {
      assert a + b == b;
    }
  }

  /** A text without the delimiter splits into itself alone. */
  lemma {:induction false} SplitWithout(s: string, d: char)
    requires d !in s
    ensures Split(s, d) == [s]
    decreases |s|
  {
    if s != [] {
      SplitWithout(s[1..], d);
      assert [s[0]] + s[1..] == s;
    }
  }

  /** A delimiter-free piece followed by the delimiter splits off as one piece. */
  lemma {:induction false} SplitAfterPiece(p: string, d: char, tail: string)
    requires d !in p
    ensures Split(p + [d] + tail, d) == [p] + Split(tail, d)
    decreases |p|
  {
    var s := p + [d] + tail;
    if p == [] {
      assert s[1..] == tail;
    } else {
      assert s[1..] == p[1..] + [d] + tail;
      SplitAfterPiece(p[1..], d, tail);
      assert [p[0]] + p[1..] == p;
    }
  }

  /** Splitting is the inverse of terminating: delimiter-free pieces followed by
      a delimiter-free rest split back into exactly those pieces and that rest. */
  lemma {:induction false} SplitTerminated(pieces: seq<string>, rest: string, d: char)
    requires forall i :: 0 <= i < |pieces| ==> d !in pieces[i]
    requires d !in rest
    ensures Split(Terminated(pieces, d) + rest, d) == pieces + [rest]
    decreases |pieces|
  {
    if pieces == [] {
      assert Terminated(pieces, d) + rest == rest;
      SplitWithout(rest, d);
    } else {
      var tail := Terminated(pieces[1..], d) + rest;
      assert Terminated(pieces, d) + rest == pieces[0] + [d] + tail;
      SplitAfterPiece(pieces[0], d, tail);
      SplitTerminated(pieces[1..], rest, d);
      assert [pieces[0]] + pieces[1..] == pieces;
    }
  }

  /** The decomposition Reassemble computes is the only one: any way of writing
      buffer + chunk as delimiter-free packets, each terminated, followed by a
      delimiter-free rest, is the one Reassemble returns. */
  lemma ReassemblyUnique(buffer: string, chunk: string, packets: seq<string>, rest: string)
    requires buffer + chunk == Terminated(packets, Delim) + rest
    requires forall i :: 0 <= i < |packets| ==> Delim !in packets[i]
    requires Delim !in rest
    ensures Reassemble(buffer, chunk) == Reassembly(packets, rest)
  {
    SplitTerminated(packets, rest, Delim);
    var pieces := packets + [rest];
    assert pieces[..|pieces| - 1] == packets;
  }

  /** The server's early return yields the same packets and buffer. */
  lemma EarlyReturnEquivalent(buffer: string, chunk: string)
    ensures ReassembleEarly(buffer, chunk) == Reassemble(buffer, chunk)
  {
    var s := buffer + chunk;
    if Delim !in s {
      ReassemblyUnique(buffer, chunk, [], s);
    }
  }

  /** Framing round trip: one frame fed to an empty buffer gives back the text
      as the only packet and leaves the buffer empty. */
  lemma FrameRoundTrip(text: string)
    requires Delim !in text
    ensures Reassemble([], Frame(text)) == Reassembly([text], [])
  {
    assert Terminated([text], Delim) == Frame(text);
    ReassemblyUnique([], Frame(text), [text], []);
  }

  /** A stream of frames fed to an empty buffer in one chunk gives back every text, in order. */
  lemma StreamRoundTrip(texts: seq<string>)
    requires forall i :: 0 <= i < |texts| ==> Delim !in texts[i]
    ensures Reassemble([], Terminated(texts, Delim)) == Reassembly(texts, [])
  {
    ReassemblyUnique([], Terminated(texts, Delim), texts, []);
  }

  /** How the stream is cut into chunks does not matter: two chunks received one
      after the other yield the packets and buffer of their concatenation.
      Chunks are text here, so this is about chunks cut at character boundaries. */
  lemma ChunkingIndependent(buffer: string, c1: string, c2: string)
    ensures var first := Reassemble(buffer, c1);
            var second := Reassemble(first.rest, c2);
            Reassemble(buffer, c1 + c2) == Reassembly(first.packets + second.packets, second.rest)
  {
    var first := Reassemble(buffer, c1);
    var second := Reassemble(first.rest, c2);
    var packets := first.packets + second.packets;
    assert Terminated(packets, Delim) + second.rest == buffer + (c1 + c2) by {
      TerminatedAppend(first.packets, second.packets, Delim);
      calc {
        Terminated(packets, Delim) + second.rest;
        Terminated(first.packets, Delim) + (Terminated(second.packets, Delim) + second.rest);
        Terminated(first.packets, Delim) + (first.rest + c2);
        (buffer + c1) + c2;
      }
    }
    assert forall i :: 0 <= i < |packets| ==> Delim !in packets[i] by {
      forall i | 0 <= i < |packets|
        ensures Delim !in packets[i]
      {
        if i >= |first.packets| {
          assert packets[i] == second.packets[i - |first.packets|];
        }
      }
    }
    ReassemblyUnique(buffer, c1 + c2, first.packets + second.packets, second.rest);
  }

  /** The framing has no escaping: one frame whose text holds the delimiter
      comes out of the receiver cut at every delimiter, one packet more than
      the text has delimiters, and the buffer is left empty. */
  lemma DelimiterCollision(text: string)
    ensures var r := Reassemble([], Frame(text));
            && r == Reassembly(Split(text, Delim), [])
            && |r.packets| == Occurrences(text, Delim) + 1
  {
    var pieces := Split(text, Delim);
    FrameTerminatesPieces(text);
    SplitPiecesFree(text, Delim);
    ReassemblyUnique([], Frame(text), pieces, []);
  }

  /** A frame is the pieces of its text, each followed by the delimiter. */
  lemma FrameTerminatesPieces(text: string)
    ensures Frame(text) == Terminated(Split(text, Delim), Delim) + []
  {
    var pieces := Split(text, Delim);
    var n := |pieces|;
    var init, last := pieces[..n - 1], pieces[n - 1];
    SplitRejoins(text, Delim);
    JoinTerminated(pieces, Delim);
    assert text == Terminated(init, Delim) + last;
    TerminatedAppend(init, [last], Delim);
    assert init + [last] == pieces;
    assert Terminated([last], Delim) == last + [Delim];
  }
}

=== FILE: outbox.dfy ===
/** The server's durable outbox: one file per queued message, named
    `<id>.<event>` and holding the JSON of its data, removed when the peer
    acknowledges it, and read back into the queue when a server starts. The
    directory is a map from file name to contents; the order in which it is
    listed is a parameter. */
module Outbox {
  import opened Wrappers
  import opened Protocol
  import Framing

  /** `${id}.${event}`: the name of the file that mirrors a queued message. */
  function FileName(id: string, event: string): (f: string)
    ensures '.' !in id && '.' !in event ==> Framing.Split(f, '.') == [id, event]
  {
    assert id + "." + event == Framing.Terminated([id], '.') + event;
    if '.' !in id && '.' !in event then Framing.SplitTerminated([id], event, '.'); id + "." + event
    else id + "." + event
  }

  /** `f.split('.')[0]` and `f.split('.')[1]`. A name with no '.' has no second
      piece; its event is JavaScript's `undefined`, written here as the text a
      template literal would print for it. */
  function NameParts(f: string): (p: (string, string))
    ensures '.' !in p.0 && '.' !in p.1
    ensures '.' !in f ==> p == (f, "undefined")
    ensures '.' in f ==> p.0 + "." + p.1 <= f
    ensures '.' in f && |p.0| + 1 + |p.1| < |f| ==> f[|p.0| + 1 + |p.1|] == '.'
  {
    var parts := Framing.Split(f, '.');
    Framing.SplitPiecesFree(f, '.');
    Framing.SplitRejoins(f, '.');
    if '.' !in f then
      Framing.SplitWithout(f, '.');
      (parts[0], "undefined")
    else
      assert |parts| > 1;
      var rest := Framing.Join(parts[1..], '.');
      assert f == parts[0] + "." + rest;
      assert parts[1] <= rest && (|parts[1]| < |rest| ==> rest[|parts[1]|] == '.') by {
        if |parts[1..]| > 1 {
          assert rest == parts[1] + ['.'] + Framing.Join(parts[2..], '.') by {
            assert parts[1..][1..] == parts[2..];
          }
        }
      }
      assert f[|parts[0]| + 1..] == rest;
      (parts[0], parts[1])
  }

  /** The file an incoming ACK unlinks: `${data.id}.${data.event}`, where data that
      is not an `{id, event}` object has both fields undefined. */
  function AckTarget(d: Data): (f: string)
    ensures d.Ref? && '.' !in d.id && '.' !in d.event ==> NameParts(f) == (d.id, d.event)
    ensures d.Opaque? ==> f == "undefined.undefined" && NameParts(f) == ("undefined", "undefined")
  {
    match d
    case Ref(id, event) =>
      if '.' !in id && '.' !in event then NameRoundTrip(id, event); FileName(id, event)
      else FileName(id, event)
    case Opaque(_, _) =>
      UndefinedName();
      FileName("undefined", "undefined")
  }

  /** The name `${undefined}.${undefined}` and how it splits. */
  lemma UndefinedName()
    ensures FileName("undefined", "undefined") == "undefined.undefined"
    ensures NameParts("undefined.undefined") == ("undefined", "undefined")
  {
    NameRoundTrip("undefined", "undefined");
  }

  /** Names round-trip: when neither id nor event contains '.', the file name
      splits back into the same id and event. */
  lemma NameRoundTrip(id: string, event: string)
    requires '.' !in id && '.' !in event
    ensures NameParts(FileName(id, event)) == (id, event)
  {
    assert FileName(id, event) == Framing.Terminated([id], '.') + event;
    Framing.SplitTerminated([id], event, '.');
  }

  /** An event that itself contains '.' comes back cut at its first '.'. */
  lemma DottedEventTruncated(id: string, e1: string, e2: string)
    requires '.' !in id && '.' !in e1
    ensures NameParts(FileName(id, e1 + "." + e2)) == (id, e1)
  {
    assert FileName(id, e1 + "." + e2) == id + ['.'] + (e1 + ['.'] + e2);
    Framing.SplitAfterPiece(id, '.', e1 + ['.'] + e2);
    Framing.SplitAfterPiece(e1, '.', e2);
  }

  /** The message one outbox file is restored to, or `None` when its contents do
      not parse or parse to a falsy value. */
  function Restore(j: Json, f: string, contents: string): (r: Option<Message>)
    ensures r.Some? <==> j.parseData(contents).Some? && Truthy(j.parseData(contents).value)
    ensures r.Some? ==> r.value.data == j.parseData(contents).value && (r.value.id, r.value.event) == NameParts(f)
  {
    var (id, event) := NameParts(f);
    match j.parseData(contents)
    case None => None
    case Some(d) => if Truthy(d) then Some(Message(id, event, d)) else None
  }

  /** What start-up recovery yields: the restored queue, and how many files
      failed to parse (each reported as an 'error'). */
  datatype Recovery = Recovery(messages: seq<Message>, faults: nat)

  /** Start-up recovery: every listed file in listing order, restored, with the
      unparsable and the falsy ones left out; each unparsable file is one fault. */
  function Recover(j: Json, listing: seq<string>, files: map<string, string>): (r: Recovery)
    requires forall i :: 0 <= i < |listing| ==> listing[i] in files
    ensures |r.messages| + r.faults <= |listing|
    ensures forall k :: 0 <= k < |r.messages| ==> Truthy(r.messages[k].data)
    decreases |listing|
  {
    if listing == [] then Recovery([], 0)
    else
      var f := listing[0];
      var tail := Recover(j, listing[1..], files);
      var fault := if j.parseData(files[f]).None? then 1 else 0;
      match Restore(j, f, files[f])
      case None => Recovery(tail.messages, tail.faults + fault)
      case Some(m) => Recovery([m] + tail.messages, tail.faults)
  }

  /** Reference count: how many listed files do not parse. */
  function Unparsable(j: Json, listing: seq<string>, files: map<string, string>): nat
    requires forall i :: 0 <= i < |listing| ==> listing[i] in files
    decreases |listing|
  {
    if listing == [] then 0
    else (if j.parseData(files[listing[0]]).None? then 1 else 0) + Unparsable(j, listing[1..], files)
  }

  /** Recovery reports one fault for every listed file that does not parse, and
      no other. */
  lemma {:induction false} RecoverFaults(j: Json, listing: seq<string>, files: map<string, string>)
    requires forall i :: 0 <= i < |listing| ==> listing[i] in files
    ensures Recover(j, listing, files).faults == Unparsable(j, listing, files)
    decreases |listing|
  {
    if listing != [] {
      RecoverFaults(j, listing[1..], files);
    }
  }

  /** Recovery invents nothing: every restored message is what some listed file restores to. */
  lemma {:induction false} RecoverSound(j: Json, listing: seq<string>, files: map<string, string>)
    requires forall i :: 0 <= i < |listing| ==> listing[i] in files
    ensures forall m :: m in Recover(j, listing, files).messages ==>
              exists f :: f in listing && f in files && Restore(j, f, files[f]) == Some(m)
    decreases |listing|
  {
    if listing != [] {
      RecoverSound(j, listing[1..], files);
      var f := listing[0];
      assert forall g :: g in listing[1..] ==> g in listing;
      if Restore(j, f, files[f]).Some? {
        assert Recover(j, listing, files).messages == [Restore(j, f, files[f]).value] + Recover(j, listing[1..], files).messages;
      }
    }
  }

  /** Recovery loses nothing: every listed file that restores is in the queue. */
  lemma {:induction false} RecoverComplete(j: Json, listing: seq<string>, files: map<string, string>)
    requires forall i :: 0 <= i < |listing| ==> listing[i] in files
    ensures forall f :: f in listing && f in files && Restore(j, f, files[f]).Some? ==>
              Restore(j, f, files[f]).value in Recover(j, listing, files).messages
    decreases |listing|
  {
    if listing != [] {
      RecoverComplete(j, listing[1..], files);
      var f := listing[0];
      assert forall g :: g in listing ==> g == f || g in listing[1..];
      if Restore(j, f, files[f]).Some? {
        assert Recover(j, listing, files).messages == [Restore(j, f, files[f]).value] + Recover(j, listing[1..], files).messages;
      }
    }
  }

  /** Recovery as the constructor runs it: the 'error' for an unparsable file is
      emitted while nobody can be listening yet, so it throws out of the
      constructor (`None`) instead of dropping the file. */
  function RecoverAsWritten(j: Json, listing: seq<string>, files: map<string, string>): (r: Option<seq<Message>>)
    requires forall i :: 0 <= i < |listing| ==> listing[i] in files
    ensures r.Some? <==> forall i :: 0 <= i < |listing| ==> j.parseData(files[listing[i]]).Some?
    ensures r.Some? ==> |r.value| <= |listing|
    decreases |listing|
  {
    if listing == [] then Some([])
    else
      var f := listing[0];
      match j.parseData(files[f])
      case None => None
      case Some(d) =>
        match RecoverAsWritten(j, listing[1..], files)
        case None => None
        case Some(ms) =>
          var (id, event) := NameParts(f);
          Some((if Truthy(d) then [Message(id, event, d)] else []) + ms)
  }

  /** As written, a single unparsable file makes start-up throw. */
  lemma {:induction false} CorruptFileAbortsStartup(j: Json, listing: seq<string>, files: map<string, string>, bad: nat)
    requires forall i :: 0 <= i < |listing| ==> listing[i] in files
    requires bad < |listing| && j.parseData(files[listing[bad]]).None?
    ensures RecoverAsWritten(j, listing, files).None?
    decreases |listing|
  {
    if bad > 0 {
      CorruptFileAbortsStartup(j, listing[1..], files, bad - 1);
    }
  }

  /** When every file parses, the start-up as written and the recovery that drops
      bad files agree, and no fault is reported. */
  lemma {:induction false} CleanStartupAgrees(j: Json, listing: seq<string>, files: map<string, string>)
    requires forall i :: 0 <= i < |listing| ==> listing[i] in files
    requires forall i :: 0 <= i < |listing| ==> j.parseData(files[listing[i]]).Some?
    ensures RecoverAsWritten(j, listing, files) == Some(Recover(j, listing, files).messages)
    ensures Recover(j, listing, files).faults == 0
    decreases |listing|
  {
    if listing != [] {
      CleanStartupAgrees(j, listing[1..], files);
      var f := listing[0];
      var d := j.parseData(files[f]).value;
      var m := Message(NameParts(f).0, NameParts(f).1, d);
      assert Restore(j, f, files[f]) == if Truthy(d) then Some(m) else None;
      var tail := Recover(j, listing[1..], files).messages;
      assert RecoverAsWritten(j, listing, files) == Some((if Truthy(d) then [m] else []) + tail);
      if Truthy(d) {
        assert Recover(j, listing, files).messages == [m] + tail;
      } else {
        assert [] + tail == tail;
        assert Recover(j, listing, files).messages == tail;
      }
    }
  }

  /** Durability: a file written for (id, event, data) and still present at start-up
      is restored to exactly that message, when data is truthy, its JSON parses
      back, and neither id nor event contains '.'. */
  lemma RestoresWrittenFile(j: Json, listing: seq<string>, files: map<string, string>, id: string, event: string, d: Data)
    requires forall i :: 0 <= i < |listing| ==> listing[i] in files
    requires DataRoundTrips(j) && Truthy(d)
    requires '.' !in id && '.' !in event
    requires FileName(id, event) in listing
    requires FileName(id, event) in files && files[FileName(id, event)] == j.stringifyData(d)
    ensures Message(id, event, d) in Recover(j, listing, files).messages
  {
    var f := FileName(id, event);
    NameRoundTrip(id, event);
    assert j.parseData(j.stringifyData(d)) == Some(d);
    assert Restore(j, f, files[f]) == Some(Message(id, event, d));
    RecoverComplete(j, listing, files);
  }
}

=== FILE: protocol.dfy ===
/** The values both peers exchange, the observations they emit, and the codec
    that turns a message into the text of one frame. JSON serialisation and the
    symmetric cipher are foreign code: they are function-valued parameters here,
    and what they are assumed to guarantee is stated as predicates that the
    lemmas needing it require. */
module Protocol {
  import opened Wrappers
  import Framing

  /** The event tag the protocol reserves for acknowledgements. */
  const Ack: string := "ACK"

  /** The `data` field of a message. An ACK carries `{id, event}` of the message
      it acknowledges (`Ref`); any other JSON value is opaque here, known only
      by a token and by whether JavaScript coerces it to true. */
  datatype Data = Ref(id: string, event: string) | Opaque(token: nat, truthy: bool)

  /** `!!data`: objects are truthy; an opaque value is as its flag says. */
  function Truthy(d: Data): (b: bool)
    ensures d.Ref? ==> b
    ensures d.Opaque? ==> (b <==> d.truthy)
  {
    d.Ref? || d.truthy
  }

  /** `{id, event, data}`, the unit on the wire. */
  datatype Message = Message(id: string, event: string, data: Data)

  /** An application reply callback, known by an identity token. */
  datatype Handler = Handler(token: nat)

  /** A client queue entry `{event, data, callback}`; its id is made at write time. */
  datatype Outgoing = Outgoing(event: string, data: Data, callback: Option<Handler>)

  /** Causes of an 'error' observation. */
  datatype Fault = WriteFailed | DecodeFailed | ParseFailed

  /** What a peer emits, in order: lifecycle events, 'send', 'receive', 'error',
      one application event per received tag, and calls of reply callbacks. */
  datatype Observation =
    | Connected(peer: string)
    | Disconnected(peer: string)
    | ClientSent(item: Outgoing)
    | ServerSent(msg: Message)
    | Received(msg: Message)
    | Failure(fault: Fault)
    | AppEvent(event: string, data: Data, id: Option<string>)
    | Replied(handler: Handler, data: Data)
    | Refused(handler: Handler)

  /** `JSON.stringify` / `JSON.parse`, for whole messages and for bare data;
      a parse that throws is `None`. */
  datatype Json = Json(
    stringify: Message -> string,
    parse: string -> Option<Message>,
    stringifyData: Data -> string,
    parseData: string -> Option<Data>)

  /** The configured cipher with its password: encryption to base64 text and
      decryption, which may throw (`None`). */
  datatype Cipher = Cipher(encrypt: string -> string, decrypt: string -> Option<string>)

  /** Serialisation plus the optional cipher (`!!opts.cipher`). */
  datatype Codec = Codec(json: Json, cipher: Option<Cipher>)

  /** The text of the frame a peer writes for `m`. */
  function Encode(c: Codec, m: Message): (packet: string)
    ensures SoundCodec(c) ==> Decode(c, packet) == Some(m)
  {
    var text := c.json.stringify(m);
    match c.cipher
    case None => text
    case Some(k) => k.encrypt(text)
  }

  /** The message a received packet decodes to, or `None` when decryption or
      parsing throws. */
  function Decode(c: Codec, packet: string): (r: Option<Message>)
    ensures c.cipher.Some? && c.cipher.value.decrypt(packet).None? ==> r.None?
    ensures r.Some? ==> exists text :: c.json.parse(text) == r
  {
    match c.cipher
    case None => c.json.parse(packet)
    case Some(k) =>
      match k.decrypt(packet)
      case None => None
      case Some(text) => c.json.parse(text)
  }

  ghost predicate JsonRoundTrips(j: Json)
  {
    forall m :: j.parse(j.stringify(m)) == Some(m)
  }

  ghost predicate DataRoundTrips(j: Json)
  {
    forall d :: j.parseData(j.stringifyData(d)) == Some(d)
  }

  ghost predicate CipherRoundTrips(k: Cipher)
  {
    forall t :: k.decrypt(k.encrypt(t)) == Some(t)
  }

  /** The alphabet of base64 text: letters, digits, '+', '/' and the padding '='. */
  predicate Base64Char(ch: char)
  {
    'A' <= ch <= 'Z' || 'a' <= ch <= 'z' || '0' <= ch <= '9' || ch == '+' || ch == '/' || ch == '='
  }

  /** The cipher's output is base64 text. */
  ghost predicate Base64Output(k: Cipher)
  {
    forall t, i :: 0 <= i < |k.encrypt(t)| ==> Base64Char(k.encrypt(t)[i])
  }

  ghost predicate SoundCodec(c: Codec)
  {
    JsonRoundTrips(c.json) && (c.cipher.Some? ==> CipherRoundTrips(c.cipher.value))
  }

  /** The frame texts of a sequence of messages. */
  function Texts(c: Codec, ms: seq<Message>): (ts: seq<string>)
    ensures |ts| == |ms|
    ensures forall i :: 0 <= i < |ms| ==> ts[i] == Encode(c, ms[i])
  {
    seq(|ms|, i requires 0 <= i < |ms| => Encode(c, ms[i]))
  }

  /** What each received packet decodes to. */
  function DecodeAll(c: Codec, packets: seq<string>): (ds: seq<Option<Message>>)
    ensures |ds| == |packets|
    ensures forall i :: 0 <= i < |packets| ==> ds[i] == Decode(c, packets[i])
  {
    seq(|packets|, i requires 0 <= i < |packets| => Decode(c, packets[i]))
  }

  /** The bytes a peer hands to its socket for the messages `ms`, in order. */
  function Wire(c: Codec, ms: seq<Message>): string
  {
    Framing.Terminated(Texts(c, ms), Framing.Delim)
  }

  /** With the cipher on and its output base64, no message can collide with the delimiter. */
  lemma CipherAvoidsCollision(c: Codec, m: Message)
    requires c.cipher.Some? && Base64Output(c.cipher.value)
    ensures Framing.Delim !in Encode(c, m)
  {
  }

  /** Round-trip law: whatever a peer writes for `ms`, received by the other peer
      as one chunk into an empty buffer, decodes to exactly `ms` and leaves the
      buffer empty, provided no encoded message contains the delimiter. */
  lemma WireRoundTrip(c: Codec, ms: seq<Message>)
    requires SoundCodec(c)
    requires forall i :: 0 <= i < |ms| ==> Framing.Delim !in Encode(c, ms[i])
    ensures var r := Framing.Reassemble([], Wire(c, ms));
            r.rest == [] && DecodeAll(c, r.packets) == seq(|ms|, i requires 0 <= i < |ms| => Some(ms[i]))
  {
    var ts := Texts(c, ms);
    Framing.StreamRoundTrip(ts);
    var ds := DecodeAll(c, ts);
    forall i | 0 <= i < |ms|
      ensures ds[i] == Some(ms[i])
    {
      assert ds[i] == Decode(c, Encode(c, ms[i]));
    }
  }
}

=== FILE: server.dfy ===
/** The server's delivery engine: a FIFO queue shared by every connection
    (restored from the outbox directory at start-up in durable mode, and
    mirrored there as messages are enqueued), drained one write at a time into
    the current socket, and a per-connection receive buffer. Socket events
    (connection, data, write completion, close) are explicit method calls; the
    message id the source draws at enqueue time when none is given is the
    `freshId` parameter of `Send`. */
module ServerEngine {
  import opened Wrappers
  import opened Protocol
  import Framing
  import Outbox
  import Dispatch
  import Collections

  /** `id || genId()`: a given id unless it is missing or empty. */
  function IdOrFresh(id: Option<string>, freshId: string): (r: string)
    ensures id.Some? && id.value != "" ==> r == id.value
    ensures id.None? || id.value == "" ==> r == freshId
  {
    if id.Some? && id.value != "" then id.value else freshId
  }

  /** What start-up recovery reports: one 'error' per outbox file that does not parse. */
  function ParseFaults(n: nat): (obs: seq<Observation>)
    ensures |obs| == n
    ensures forall k :: 0 <= k < n ==> obs[k] == Failure(ParseFailed)
  {
    seq(n, _ => Failure(ParseFailed))
  }

  class Server {
    const codec: Codec
    /** `opts.id`, echoed in the connection and disconnection observations. */
    const peer: string
    /** `!!opts.dir`: messages are mirrored in the outbox directory. */
    const durable: bool

    var queue: seq<Message>
    /** The outbox directory: file name to contents. */
    var outbox: map<string, string>
    var isBusy: bool
    /** `server.next` is set: a connection has been accepted at least once. */
    var drainable: bool
    /** The socket of the last connection is still defined. */
    var connected: bool
    var buffer: string
    /** The head of the queue has been handed to a socket and its write callback has not run. */
    var inFlight: bool
    /** Every message handed to a socket, in order. */
    var written: seq<Message>
    /** Everything emitted, in order. */
    var log: seq<Observation>

    /** The messages shifted off the queue after their write completed. */
    ghost var shifted: seq<Message>

    ghost predicate Valid()
      reads this
    {
      && Framing.Delim !in buffer
      && (inFlight ==> isBusy && drainable && |queue| > 0)
      && written == shifted + (if inFlight then [queue[0]] else [])
      && (!drainable ==> isBusy && !connected)
      && (!durable ==> outbox == map[])
    }

    /** Drain discipline: the messages handed to sockets are the queue's
        history in enqueue order, with at most the head written and not yet
        shifted off. */
    lemma WritesFollowQueue()
      requires Valid()
      ensures |written| <= |shifted| + |queue|
      ensures written == (shifted + queue)[..|written|]
      ensures |written| <= |shifted| + 1
    {
      if inFlight {
        assert (shifted + queue)[..|shifted| + 1] == shifted + [queue[0]];
      } else {
        assert (shifted + queue)[..|shifted|] == shifted;
      }
    }

    /** `new Server(opts)` with the corrected recovery: in durable mode the
        queue is what `Outbox.Recover` restores from the files of the
        directory, in the order `listing` lists each of them once, and each
        file that does not parse is reported as one 'error' and dropped; busy
        until the first connection. As written, the first unparsable file
        makes the constructor throw instead (`Outbox.RecoverAsWritten`). */
    constructor (codec: Codec, peer: string, durable: bool, listing: seq<string>, files: map<string, string>)
      requires forall f :: f in files <==> f in listing
      requires forall i, k :: 0 <= i < k < |listing| ==> listing[i] != listing[k]
      ensures Valid()
      ensures this.codec == codec && this.peer == peer && this.durable == durable
      ensures var r := Outbox.Recover(codec.json, listing, files);
              && queue == (if durable then r.messages else [])
              && outbox == (if durable then files else map[])
              && log == (if durable then ParseFaults(r.faults) else [])
      ensures durable ==> |log| == Outbox.Unparsable(codec.json, listing, files)
      ensures isBusy && !drainable && !connected && !inFlight
      ensures buffer == [] && written == []
    {
      this.codec := codec;
      this.peer := peer;
      this.durable := durable;
      assert forall i :: 0 <= i < |listing| ==> listing[i] in files by {
        forall i | 0 <= i < |listing|
          ensures listing[i] in files
        {
          assert listing[i] in listing;
        }
      }
      Outbox.RecoverFaults(codec.json, listing, files);
      var r := Outbox.Recover(codec.json, listing, files);
      if durable {
        queue := r.messages;
        outbox := files;
        log := ParseFaults(r.faults);
      } else {
        queue := [];
        outbox := map[];
        log := [];
      }
      isBusy := true;
      drainable := false;
      connected := false;
      buffer := [];
      inFlight := false;
      written := [];
      shifted := [];
    }

    /** `next()`: a no-op while busy; with an empty queue it clears busy; with
        a socket it hands the head to it; without one (after a close) it stays
        busy and writes nothing. */
    method Next()
      requires Valid() && drainable
      modifies this`isBusy, this`written, this`inFlight
      ensures Valid()
      ensures old(isBusy) ==> isBusy && written == old(written) && inFlight == old(inFlight)
      ensures !old(isBusy) && queue == [] ==> !isBusy && written == old(written) && !inFlight
      ensures !old(isBusy) && queue != [] && connected ==>
                isBusy && inFlight && written == old(written) + [queue[0]]
      ensures !old(isBusy) && queue != [] && !connected ==>
                isBusy && !inFlight && written == old(written)
    {
      if isBusy {
        return;
      }
      isBusy := true;
      if |queue| == 0 {
        isBusy := false;
        return;
      }
      if connected {
        written := written + [queue[0]];
        inFlight := true;
      }
    }

    /** `send(event, data, id)`: the message joins the tail of the queue (and,
        in durable mode, its data is written to the file named after its id and
        event, replacing any earlier file of that name); once a connection has
        been accepted, the queue is drained. */
    method Send(event: string, data: Data, id: Option<string>, freshId: string)
      requires Valid()
      modifies this`queue, this`outbox, this`isBusy, this`written, this`inFlight
      ensures Valid()
      ensures var msg := Message(IdOrFresh(id, freshId), event, data);
              && queue == old(queue) + [msg]
              && outbox == (if durable then old(outbox)[Outbox.FileName(msg.id, event) := codec.json.stringifyData(data)]
                            else old(outbox))
      ensures old(isBusy) || !drainable ==> isBusy == old(isBusy) && written == old(written) && inFlight == old(inFlight)
      ensures !old(isBusy) && drainable && connected ==> isBusy && inFlight && written == old(written) + [queue[0]]
      ensures !old(isBusy) && drainable && !connected ==> isBusy && !inFlight && written == old(written)
    {
      var msg := Message(IdOrFresh(id, freshId), event, data);
      queue := queue + [msg];
      if durable {
        outbox := outbox[Outbox.FileName(msg.id, event) := codec.json.stringifyData(data)];
      }
      if drainable {
        Next();
      }
    }

    /** The write callback (its error argument is ignored): 'send' is emitted
        for the head, the head is shifted off, and the queue is drained again. */
    method WriteComplete()
      requires Valid() && inFlight
      modifies this`queue, this`isBusy, this`written, this`inFlight, this`log, this`shifted
      ensures Valid()
      ensures log == old(log) + [ServerSent(old(queue)[0])]
      ensures queue == old(queue)[1..] && shifted == old(shifted) + [old(queue)[0]]
      ensures queue == [] ==> !isBusy && !inFlight && written == old(written)
      ensures queue != [] && connected ==> isBusy && inFlight && written == old(written) + [queue[0]]
      ensures queue != [] && !connected ==> isBusy && !inFlight && written == old(written)
    {
      log := log + [ServerSent(queue[0])];
      shifted := shifted + [queue[0]];
      queue := queue[1..];
      isBusy := false;
      inFlight := false;
      Next();
    }

    /** A connection is accepted: a fresh buffer, no longer busy, 'connection'
        is emitted, and the queue is drained into the new socket. */
    method Accept()
      requires Valid() && !connected && !inFlight
      modifies this`buffer, this`connected, this`drainable, this`isBusy, this`written, this`inFlight, this`log
      ensures Valid()
      ensures connected && drainable && buffer == []
      ensures log == old(log) + [Connected(peer)]
      ensures queue == [] ==> !isBusy && !inFlight && written == old(written)
      ensures queue != [] ==> isBusy && inFlight && written == old(written) + [queue[0]]
    {
      buffer := [];
      isBusy := false;
      drainable := true;
      connected := true;
      log := log + [Connected(peer)];
      Next();
    }

    /** The socket's 'close' event: 'disconnection' is emitted and the socket
        is forgotten; busy is left as it was. */
    method OnClose()
      requires Valid() && connected
      modifies this`connected, this`log
      ensures Valid()
      ensures !connected && log == old(log) + [Disconnected(peer)]
    {
      log := log + [Disconnected(peer)];
      connected := false;
    }

    /** One packet of a 'data' event: a packet that failed to decode reports an
        'error'; in durable mode an ACK unlinks the file it names; any other
        message is emitted with its data and id. Nothing is ever enqueued in
        reply. */
    method Handle(d: Option<Message>)
      requires Valid()
      modifies this`log, this`outbox
      ensures Valid()
      ensures var s := Dispatch.ServerDispatch(durable, d);
              && log == old(log) + s.obs
              && outbox == old(outbox) - (set f | f in s.unlinks)
    {
      match d {
        case None =>
          log := log + [Failure(DecodeFailed)];
        case Some(m) =>
          log := log + [Received(m)];
          if m.event == Ack && durable {
            outbox := outbox - {Outbox.AckTarget(m.data)};
          } else {
            Collections.AppendAssociates(old(log), [Received(m)], [AppEvent(m.event, m.data, Some(m.id))]);
            log := log + [AppEvent(m.event, m.data, Some(m.id))];
          }
      }
    }

    /** The packets of one chunk, decoded and handled in turn; a packet that
        fails to decode does not stop the ones after it. */
    method HandleAll(packets: seq<string>)
      requires Valid()
      modifies this`log, this`outbox
      ensures Valid()
      ensures var r := Dispatch.ServerReceive(durable, DecodeAll(codec, packets));
              && log == old(log) + r.obs
              && outbox == old(outbox) - (set f | f in r.unlinks)
    {
      ghost var ds := DecodeAll(codec, packets);
      ghost var log0, outbox0 := log, outbox;
      ghost var st := Dispatch.ServerReceive(durable, []);
      var i := 0;
      while i < |packets|
        invariant 0 <= i <= |packets|
        invariant Valid()
        invariant st == Dispatch.ServerReceive(durable, ds[..i])
        invariant log == log0 + st.obs
        invariant outbox == outbox0 - (set f | f in st.unlinks)
      {
        var d := Decode(codec, packets[i]);
        assert d == ds[i];
        Dispatch.ServerReceiveSnoc(durable, ds[..i], d);
        assert ds[..i + 1] == ds[..i] + [d];
        ghost var s := Dispatch.ServerDispatch(durable, d);
        Collections.AppendAssociates(log0, st.obs, s.obs);
        Collections.RemoveListed(outbox0, st.unlinks, s.unlinks);
        Handle(d);
        st := Dispatch.ServerStep(st.obs + s.obs, st.unlinks + s.unlinks);
        i := i + 1;
      }
      assert ds[..|packets|] == ds;
    }

    /** The socket's 'data' event: the chunk is appended to the buffer; when
        the buffer holds no delimiter nothing else happens; otherwise the
        complete packets are handled and what follows the last delimiter is
        kept for the next chunk. */
    method OnData(chunk: string)
      requires Valid() && connected
      modifies this`buffer, this`log, this`outbox
      ensures Valid()
      ensures var re := Framing.ReassembleEarly(old(buffer), chunk);
              var r := Dispatch.ServerReceive(durable, DecodeAll(codec, re.packets));
              && buffer == re.rest
              && log == old(log) + r.obs
              && outbox == old(outbox) - (set f | f in r.unlinks)
    {
      var before := buffer;
      buffer := buffer + chunk;
      if Framing.Delim !in buffer {
        assert DecodeAll(codec, []) == [];
        return;
      }
      var re := Framing.Reassemble(before, chunk);
      buffer := re.rest;
      HandleAll(re.packets);
    }
  }
}

=== FILE: wrappers.dfy ===
/** Optional values, for results that may be absent (a failed parse, a missing callback). */
module Wrappers {

  datatype Option<+T> = None | Some(value: T)
}
